=== FILE: README.md ===
# Quorum coordination of a replicated key-value node

This project models the coordination core of a small Dynamo-style
replicated key-value store. The store exposes the HTTP API `/v0/entity`.

Each node of the cluster keeps a local record store. When a client sends
the node a request, that node becomes the coordinator. It does four things:

- It reads or writes its own copy.
- It fans the request out to a fixed prefix of its sorted peer list.
- It counts how many replicas answered or acknowledged.
- If at least `ask` of the `from` replicas did, it answers with the
  newest value (last write wins, with tombstones for deletes). Otherwise it
  answers 504.

A peer marks its request with an internal header. The receiving node then
answers from local storage only.

The Dafny modules follow the source files.

| module | models |
|---|---|
| `Wrappers` | `Option`, `Result`, and `Attempt`. `Attempt` is a storage call that either returned a value or threw. |
| `Text` | The JVM string operations the code relies on: Kotlin's `split`, Java's `split` and Java 8's `splitAsStream`, `Integer.parseInt` and `toString`, `endsWith`, `isBlank`, `String` ordering, ASCII upper-casing. |
| `Replicas` | `ReplicasParam`: the `ask/from` quorum pair, its validation, its parser for the `replicas` query parameter, and the majority default. |
| `Records` | `Data` (`Data.kt`), the four kinds of answer a replica can give for a key, and the last-write-wins merge an external GET applies. |
| `Topology` | Construction of the peer list: every configured address not taken for the node itself, sorted. Also the fan-out prefix `addresses.take(from - 1)`. |
| `Coordinator` | `KVServiceImpl.kt`: validation and dispatch in `entity`, and the status decision of each internal and external GET, PUT and DELETE. |
| `PeerClient` | How a peer's HTTP answer becomes the `Data` or `bool` the coordinator counts (`GetRequest`, `PutRequest`, `DeleteRequest`), and the shape of a fan-out batch result (`SequenceRequestProcessor`). |
| `LegacyService` | The earlier single-node `KVServiceImpl.java`: its hand-written `queryToMap` and the validation and dispatch in `handleRequestEntity`. |

Storage and the network are not actions in this model. Each operation takes
what they produced as input:

- the local storage call's outcome, as an `Attempt`;
- the fan-out's list of peer results, which is either one result per
  target or empty.

The proofs therefore hold whatever the replicas hold and however the peers
fail.

## Model

Source paths are relative to the repository root.

| member | source | states |
|---|---|---|
| Replicas.Make | src/main/java/ru/mail/polis/mmishak/ReplicasParam.kt:5-11 | A quorum is built exactly when 1 ≤ ask ≤ from, and it keeps the pair. Otherwise it reports the first failing check in source order: ask not positive, then from not positive, then ask above from. |
| Replicas.ParseFields | src/main/java/ru/mail/polis/mmishak/ReplicasParam.kt:17 | `map { it.toInt() }` succeeds exactly when every field is a valid Int. It then yields each field's value, in order. |
| Replicas.ByRequestParam | src/main/java/ru/mail/polis/mmishak/ReplicasParam.kt:15-22 | The parameter is accepted exactly when three conditions hold: every `/`-separated field (empty ones included) is an Int, there are at least two fields, and 1 ≤ first ≤ second. The quorum is then the first two numbers. It is malformed exactly when some field is not an Int. |
| Replicas.FormatParseRoundTrip | src/main/java/ru/mail/polis/mmishak/ReplicasParam.kt:15-18 | Parsing the text `ask/from` of a valid quorum gives back that quorum. |
| Replicas.ExtraIntegerFieldsIgnored | src/main/java/ru/mail/polis/mmishak/ReplicasParam.kt:17-18 | Integer fields after the second are parsed but ignored. `ask/from/n/…` gives the quorum of its first two fields. |
| Replicas.ThirdFieldIgnored | src/main/java/ru/mail/polis/mmishak/ReplicasParam.kt:17-18 | `"1/2/3"` is accepted as ask 1 of from 2. |
| Replicas.SingleFieldRejected | src/main/java/ru/mail/polis/mmishak/ReplicasParam.kt:17-20 | A single number such as `"3"` has too few fields to destructure and is rejected. |
| Replicas.NonNumericRejected | src/main/java/ru/mail/polis/mmishak/ReplicasParam.kt:17-20 | `"x/y"` is rejected as malformed. |
| Replicas.TrailingSlashRejected | src/main/java/ru/mail/polis/mmishak/ReplicasParam.kt:17-20 | `"2/3/"` is rejected. The empty last field is kept and is not an Int. |
| Replicas.ZeroAskRejected | src/main/java/ru/mail/polis/mmishak/ReplicasParam.kt:7-18 | `"0/3"` is rejected by the ask-not-positive check. |
| Replicas.AskAboveFromRejected | src/main/java/ru/mail/polis/mmishak/ReplicasParam.kt:9-18 | `"4/3"` is rejected by the ask-above-from check. |
| Replicas.ByNodeCount | src/main/java/ru/mail/polis/mmishak/ReplicasParam.kt:24 | The default quorum exists exactly when there is at least one node. It is then `count/2 + 1` of `count`, a strict majority. With no nodes, construction fails with from not positive. |
| Replicas.DefaultQuorumsIntersect | src/main/java/ru/mail/polis/mmishak/ReplicasParam.kt:24 | Under the default quorum, any two sets of `ask` nodes share a node. |
| Records.Versions | src/main/java/ru/mail/polis/mmishak/KVServiceImpl.kt:127-128 | Keeps exactly the results that carry a timestamp (live values and tombstones), each as often as it occurs. |
| Records.VersionsAppend | src/main/java/ru/mail/polis/mmishak/KVServiceImpl.kt:127-128 | The filter keeps the order of the results: filtering a concatenation concatenates the filtered parts. |
| Records.Merge | src/main/java/ru/mail/polis/mmishak/KVServiceImpl.kt:127-135 | The merge is never Error. It is Absent exactly when no result carries a timestamp. Otherwise it is a gathered result whose timestamp is at least every other's, and no earlier result has that timestamp. |
| Records.MergePicksEarliestNewest | src/main/java/ru/mail/polis/mmishak/KVServiceImpl.kt:129-135 | A timestamped result newer than everything before it, and at least as new as everything after it, is the merge. |
| Records.LocalWinsTies | src/main/java/ru/mail/polis/mmishak/KVServiceImpl.kt:119-135 | The local result, gathered first, wins against every remote result with the same timestamp. |
| Records.MergeIgnoresUnversioned | src/main/java/ru/mail/polis/mmishak/KVServiceImpl.kt:127-135 | Absent and Error answers never change the merge. |
| Records.TombstoneShadowsOlderValues | src/main/java/ru/mail/polis/mmishak/KVServiceImpl.kt:127-135 | A tombstone newer than every gathered live value makes the merge a tombstone, so no older value comes back. |
| Records.LastWriteWinsExample | src/main/java/ru/mail/polis/mmishak/KVServiceImpl.kt:127-135 | Given values at 5 and 9 and a tombstone at 7, the value at 9 is served. |
| Topology.Sort | src/main/java/ru/mail/polis/mmishak/KVServiceImpl.kt:34 | `addresses.sort()` returns the same addresses, as a multiset, in ascending order. |
| Topology.SortedUnique | src/main/java/ru/mail/polis/mmishak/KVServiceImpl.kt:34 | Two sorted lists holding the same addresses are equal. |
| Topology.Others | src/main/java/ru/mail/polis/mmishak/KVServiceImpl.kt:29-33 | Each address ending in `:port` occurs zero times. Every other address occurs as often as it does in the topology. |
| Topology.Peers | src/main/java/ru/mail/polis/mmishak/KVServiceImpl.kt:28-34 | The peer list is sorted. It holds exactly the configured addresses that do not end in `:port`, each as often as configured. |
| Topology.PeersIgnoreEnumerationOrder | src/main/java/ru/mail/polis/mmishak/KVServiceImpl.kt:28-34 | The peer list does not depend on the order in which the topology set is enumerated. |
| Topology.SamePortElsewhereIsNotAPeer | src/main/java/ru/mail/polis/mmishak/KVServiceImpl.kt:30 | Another host listening on the same port number is dropped too. |
| Topology.FanOutTargets | src/main/java/ru/mail/polis/mmishak/KVServiceImpl.kt:120-122 | The targets are a prefix of the peer list, of length `min(from - 1, peers)`. There are none when `from` is 1. |
| Topology.FanOutTargetsArePeers | src/main/java/ru/mail/polis/mmishak/KVServiceImpl.kt:122 | The targets are sorted, are configured addresses, and never end in `:port`. |
| Coordinator.Init | src/main/java/ru/mail/polis/mmishak/KVServiceImpl.kt:21-34 | A node exists exactly for a non-empty topology. Its default quorum is exactly `n/2 + 1` of `n` for `n` configured nodes, a strict majority. Its peer list is sorted and holds exactly the addresses not taken for itself, each as often as configured. |
| Coordinator.Route | src/main/java/ru/mail/polis/mmishak/KVServiceImpl.kt:52-69 | A request is rejected with 400 exactly when the id is missing or blank, or the `replicas` parameter is present but does not parse, or the method is not GET, PUT or DELETE. Otherwise the method picks the operation. The quorum is the parsed one, or the default when the parameter is absent. |
| Coordinator.RejectedRequestTouchesNothing | src/main/java/ru/mail/polis/mmishak/KVServiceImpl.kt:52-69 | A rejected request gets 400 whatever storage and the peers would report. |
| Coordinator.CountAnswered | src/main/java/ru/mail/polis/mmishak/KVServiceImpl.kt:136 | The answered count is the number of results that are not Error. |
| Coordinator.CountAcks | src/main/java/ru/mail/polis/mmishak/KVServiceImpl.kt:167 | The acknowledged count is the number of `true` results. |
| Coordinator.GetInternal | src/main/java/ru/mail/polis/mmishak/KVServiceImpl.kt:72-115 | An internal GET returns this node's record serialized. The status is 200 for a value, 404 for absent or deleted, and 504 for Error. A throwing storage call gives 500 with an empty body. |
| Coordinator.GetExternal | src/main/java/ru/mail/polis/mmishak/KVServiceImpl.kt:117-145 | An external GET answers 504 exactly when fewer than `ask` results are not Error. Otherwise it answers 200 with the merged live value, or 404 when the merge is not a live value. A throwing local read gives 500. |
| Coordinator.GetServesNewestValue | src/main/java/ru/mail/polis/mmishak/KVServiceImpl.kt:127-143 | A 200 serves the value of a gathered live result that is at least as new as every value and tombstone gathered. |
| Coordinator.GetFindsValueNewerThanTombstones | src/main/java/ru/mail/polis/mmishak/KVServiceImpl.kt:127-143 | Once the quorum is met, a gathered live value newer than every tombstone makes the GET a 200. |
| Coordinator.GetNotFoundMeansShadowed | src/main/java/ru/mail/polis/mmishak/KVServiceImpl.kt:127-143 | A 404 means each gathered live value is matched by a tombstone at least as new. |
| Coordinator.ReadQuorumMonotone | src/main/java/ru/mail/polis/mmishak/KVServiceImpl.kt:136-138 | If more replicas answer, a met read quorum stays met. |
| Coordinator.CountAnsweredMonotone | src/main/java/ru/mail/polis/mmishak/KVServiceImpl.kt:136 | Turning Error results into answers never lowers the answered count. |
| Coordinator.PutInternal | src/main/java/ru/mail/polis/mmishak/KVServiceImpl.kt:147-151 | An internal PUT answers 201 exactly when the storage call returned, whatever it returned. It answers 500 when the call threw. |
| Coordinator.DeleteInternal | src/main/java/ru/mail/polis/mmishak/KVServiceImpl.kt:174-178 | An internal DELETE answers 202 exactly when the storage call returned, whatever it returned. It answers 500 when the call threw. |
| Coordinator.TallyWrite | src/main/java/ru/mail/polis/mmishak/KVServiceImpl.kt:167-171 | A write tally answers success exactly when at least `ask` gathered acknowledgements are `true`. Otherwise it answers 504, or 500 when the local call threw. |
| Coordinator.PutExternal | src/main/java/ru/mail/polis/mmishak/KVServiceImpl.kt:153-172 | An external PUT answers 201 exactly when at least `ask` replicas acknowledged. Otherwise it answers 504, or 500 when the local write threw. |
| Coordinator.DeleteExternal | src/main/java/ru/mail/polis/mmishak/KVServiceImpl.kt:180-197 | An external DELETE answers 202 exactly when at least `ask` replicas acknowledged. Otherwise it answers 504, or 500 when the local write threw. |
| Coordinator.DeleteMirrorsPut | src/main/java/ru/mail/polis/mmishak/KVServiceImpl.kt:167-196 | Given the same acknowledgements, DELETE succeeds or times out exactly when PUT does. |
| Coordinator.WriteQuorumMonotone | src/main/java/ru/mail/polis/mmishak/KVServiceImpl.kt:159-171 | If more replicas acknowledge, a met write quorum stays met. |
| Coordinator.CountAcksMonotone | src/main/java/ru/mail/polis/mmishak/KVServiceImpl.kt:167 | Turning failed acknowledgements into successful ones never lowers the count. |
| Coordinator.HandleEntity | src/main/java/ru/mail/polis/mmishak/KVServiceImpl.kt:50-105 | The answer is 400 exactly when the request is rejected. An accepted request runs the operation its method names, under the quorum it asked for, or the node's default when it asked for none. External GET: 504 exactly when fewer than `ask` replicas answered; otherwise 200 with the merged value when the winner is live, and 404 when it is not. External PUT: 201 exactly when at least `ask` acknowledgements are gathered, otherwise 504. External DELETE: the same, with 202. Internal GET: answers as `GetInternal` on the local read. Internal PUT: 201. Internal DELETE: 202. A throwing local storage call gives 500. Only an external GET's 200 carries a raw value. |
| Coordinator.InternalRequestIgnoresPeers | src/main/java/ru/mail/polis/mmishak/KVServiceImpl.kt:72-115 | An internal request's answer does not depend on anything the peers report. |
| Coordinator.OneOfThreeReadIsNotAQuorum | src/main/java/ru/mail/polis/mmishak/KVServiceImpl.kt:136-138 | At `2/3`, a GET with only one answering replica is a 504, even when that replica holds the value. |
| Coordinator.OneOfThreeWriteIsNotAQuorum | src/main/java/ru/mail/polis/mmishak/KVServiceImpl.kt:167-195 | At `2/3`, one acknowledgement is a 504 for both PUT and DELETE. |
| Coordinator.SingleReplicaGetIsLocal | src/main/java/ru/mail/polis/mmishak/KVServiceImpl.kt:117-145 | At `1/1`, an external GET has the status an internal GET of the local record would have. |
| PeerClient.GetReplyData | src/main/java/ru/mail/polis/mmishak/internal/request/GetRequest.kt:13-19 | A peer's GET answer contributes the record deserialized from its body, whatever the status. It contributes Error when there is no answer or no serialized record. |
| PeerClient.InternalGetRoundTrip | src/main/java/ru/mail/polis/mmishak/KVServiceImpl.kt:108-115 | The coordinator receives exactly the record the peer read. A peer whose storage threw is seen as Error. |
| PeerClient.InternalPutAckIgnoresStorageResult | src/main/java/ru/mail/polis/mmishak/KVServiceImpl.kt:148-151 | A peer acknowledges a PUT even when its storage reported failure. Only a throwing storage call withholds the acknowledgement. |
| PeerClient.InternalDeleteAckIgnoresStorageResult | src/main/java/ru/mail/polis/mmishak/KVServiceImpl.kt:175-178 | The same holds for DELETE. |
| PeerClient.GetBeyondReachTimesOut | src/main/java/ru/mail/polis/mmishak/KVServiceImpl.kt:119-138 | A GET whose `ask` exceeds one plus the number of fan-out targets always answers 504. |
| PeerClient.PutBeyondReachTimesOut | src/main/java/ru/mail/polis/mmishak/KVServiceImpl.kt:159-170 | The same holds for PUT. |
| PeerClient.FailedFanOutMissesQuorum | src/main/java/ru/mail/polis/mmishak/internal/SequenceRequestProcessor.kt:10-19 | An interrupted or failed batch yields no results. A quorum of two or more then times out for GET, PUT and DELETE. |
| LegacyService.SegmentEntry | src/main/java/ru/mail/polis/mmishak/KVServiceImpl.java:59-61 | A segment's key is the text before its first `=`, and its value contains no `=`. A segment without `=` is a key with the empty value. |
| LegacyService.SegmentEntryMatchesSpec | src/main/java/ru/mail/polis/mmishak/KVServiceImpl.java:59-61 | A segment made only of `=` contributes nothing. Any other segment contributes a key, which is the text before the first `=`, and a value, which is the text between the first and second `=` (or up to the end). |
| LegacyService.AllFieldsEmpty | src/main/java/ru/mail/polis/mmishak/KVServiceImpl.java:59-60 | Every field of a split is empty exactly when the text is separators only. |
| LegacyService.KeyValueSegment | src/main/java/ru/mail/polis/mmishak/KVServiceImpl.java:59-61 | The segment `k=v` gives `(k, v)` when `k` and `v` contain no `=` and `k` is not empty. |
| LegacyService.BareKeySegment | src/main/java/ru/mail/polis/mmishak/KVServiceImpl.java:59-61 | The segment `k` with no `=` gives `(k, "")`. |
| LegacyService.ExtraValueFieldsDropped | src/main/java/ru/mail/polis/mmishak/KVServiceImpl.java:59-61 | In `k=v=rest`, everything from the second `=` on is dropped. |
| LegacyService.SeparatorsOnlySegmentSkipped | src/main/java/ru/mail/polis/mmishak/KVServiceImpl.java:59-60 | A non-empty segment of `=` only is skipped. |
| LegacyService.Collect | src/main/java/ru/mail/polis/mmishak/KVServiceImpl.java:62 | Every key in the map holds a value that some entry put for that key. |
| LegacyService.CollectKeys | src/main/java/ru/mail/polis/mmishak/KVServiceImpl.java:62 | A key is in the map exactly when some entry puts it. |
| LegacyService.CollectLastWins | src/main/java/ru/mail/polis/mmishak/KVServiceImpl.java:62 | A key holds the value of the last entry that puts it. |
| LegacyService.QueryToMap | src/main/java/ru/mail/polis/mmishak/KVServiceImpl.java:55-64 | An absent or empty query gives an empty map. Otherwise a key is in the map exactly when some `&`-segment sets it, and its value is the value one of those segments gives it. |
| LegacyService.EmptyQueryIsNotFound | src/main/java/ru/mail/polis/mmishak/KVServiceImpl.java:57-75 | A URI ending in `?` (an empty query string) gets 404. |
| LegacyService.LastOccurrenceWins | src/main/java/ru/mail/polis/mmishak/KVServiceImpl.java:58-62 | A repeated key takes the value of its last occurrence. |
| LegacyService.LastDuplicateWins | src/main/java/ru/mail/polis/mmishak/KVServiceImpl.java:58-62 | `id=a&id=b` gives `id` the value `b` (for `a` and `b` without `=` or `&`). |
| LegacyService.OperationOf | src/main/java/ru/mail/polis/mmishak/KVServiceImpl.java:84-93 | The method selects GET, PUT or DELETE exactly when it upper-cases to that name. |
| LegacyService.HandleRequestEntity | src/main/java/ru/mail/polis/mmishak/KVServiceImpl.java:70-97 | The handler answers 404 exactly when there is no `id` key. It answers 400 exactly when the id is empty or the method is unknown. Otherwise it dispatches the non-empty id to the method's operation. |
| LegacyService.MethodCaseIgnored | src/main/java/ru/mail/polis/mmishak/KVServiceImpl.java:84 | Methods that upper-case alike are handled alike. |
| LegacyService.NoQueryIsNotFound | src/main/java/ru/mail/polis/mmishak/KVServiceImpl.java:55-75 | A request without a query string gets 404. |
| LegacyService.EmptyIdIsBadRequest | src/main/java/ru/mail/polis/mmishak/KVServiceImpl.java:73-81 | `id=` gets 400 whatever the method. |
| Text.SplitAll | src/main/java/ru/mail/polis/mmishak/ReplicasParam.kt:17 | Kotlin's `split('/')` gives at least one field. The first is the text before the first separator, and no field contains a separator. |
| Text.StreamSplit | src/main/java/ru/mail/polis/mmishak/KVServiceImpl.java:58 | Java 8's `splitAsStream` gives the longest prefix of all the fields that ends in a non-empty field. An empty query therefore gives no segment at all. |
| Text.ParseInt | src/main/java/ru/mail/polis/mmishak/ReplicasParam.kt:17 | Only the shape of accepted text is stated: an optional sign, then at least one ASCII digit, with a value in the Int range. The value is pinned only on canonical renderings, by Text.ParseIntToString. Inputs such as `"+7"` and `"007"` are left to the body. |
| Text.IsBlank | src/main/java/ru/mail/polis/mmishak/KVServiceImpl.kt:53 | The scan `isBlank` is true exactly when every character is whitespace, which includes the empty string. |
| Text.SplitAllJoin | src/main/java/ru/mail/polis/mmishak/ReplicasParam.kt:17 | Splitting a join of separator-free fields gives back the fields. |
| Text.JoinSplitAll | src/main/java/ru/mail/polis/mmishak/ReplicasParam.kt:17 | Joining the fields of a split gives back the text. |
| Text.ParseIntToString | src/main/java/ru/mail/polis/mmishak/ReplicasParam.kt:17 | Printing an Int and parsing it back gives the same Int. |
| Text.JavaSplit | src/main/java/ru/mail/polis/mmishak/KVServiceImpl.java:58-59 | Java's split of a non-empty text is a prefix of all its fields. It ends in a non-empty field, and only empty fields are dropped. An empty text gives one empty field. |

## Left out

- Fan-out concurrency, the executor, and `stop()`: the batch result is an
  input, either one result per target or empty.
- Transport and the HTTP client: a peer call either got a response or did
  not.
- The client map of `init` is not modelled. Every peer in the peer list has
  a client, so `mapNotNull` never drops a target.
- Serialization of `Data` (`Serializer`) is not modelled. A serialized body
  is modelled as carrying the record itself.
- The storage engine and its record encoding (`KVDaoImpl`) are not part of
  this model. The outcome of each local call is an input, either a value or
  an exception.
- The status path, `handleDefault` and the request logging are not modelled.
  They make no decisions.
- LegacyService covers only `queryToMap` and the decisions of
  `handleRequestEntity`. The per-method handlers and body I/O of the earlier
  Java service are not part of this model. They read and write storage
  directly, with no quorum.
- Text.ParseInt: accepts ASCII digits only. `Integer.parseInt` also accepts
  other Unicode decimal digits. Its contract states only the shape of
  accepted text. The value is pinned only for canonical renderings.
- Text.StreamSplit: follows Java 8, which the build targets. From Java 9 on,
  `splitAsStream` of an empty query yields one empty segment. The map would
  then be `{"": ""}` rather than empty, and the status is 404 either way.
- Text.IsWhitespace: follows Unicode 6.2, as Java 8 does, so U+180E counts
  as whitespace. Later Java versions no longer treat U+180E as whitespace.
- Text.ToUpperAscii: upper-cases ASCII letters only. `String.toUpperCase`
  also maps other letters, so it differs only for methods with non-ASCII
  letters, and those are never GET, PUT or DELETE.
- Text.StrLeq: orders strings by code point. Java compares UTF-16 code
  units, which differs only for characters above U+FFFF.
- Records.Data: timestamps are unbounded integers. Kotlin's `Long` is
  64-bit, but timestamps are only compared, so its bounds do not matter
  here. No clock is modelled.
- Records.Merge: fixes the tie-break of `maxBy`, so the first maximal result
  wins. That matches the Kotlin standard library, which replaces the
  candidate only on a strictly greater key.
- LegacyService.HandleRequestEntity: answers 404 when the `id` parameter is
  missing, as the Java code does. The later Kotlin service answers 400 for
  a missing id, as Coordinator.Route states.
- Coordinator.Init: requires the topology size to be an Int, as
  `Set.size` is. With an empty topology, `byNodeCount(0)` throws before the
  address list is built. The model reports that as a failed construction.

=== FILE: coordinator.dfy ===
/** The request handler of a node (`KVServiceImpl`): validation and
    dispatch of `/v0/entity` requests, and for each method the decision
    that turns the local storage result and the peers' results into one
    HTTP response.

    Storage and the fan-out are not modelled as actions: what they
    produced is an input. `Attempt<T>` is the local storage call (it
    returned a value or threw) and a `seq` is what the fan-out executor
    handed back (one result per target, or nothing at all). */
module Coordinator {
  import opened Wrappers
  import opened Text
  import opened Replicas
  import opened Records
  import opened Topology

  const OK := 200
  const CREATED := 201
  const ACCEPTED := 202
  const BAD_REQUEST := 400
  const NOT_FOUND := 404
  const INTERNAL_ERROR := 500
  const GATEWAY_TIMEOUT := 504

  /** The request methods the handler tells apart. */
  datatype Method = GET | PUT | DELETE | OtherMethod

  /** A response body: nothing, raw value bytes, or a serialized replica
      result (what an internal GET returns so that the caller can tell the
      four kinds of `Data` apart). */
  datatype Body = Empty | Value(bytes: seq<byte>) | Serialized(data: Data)

  datatype Response = Response(status: int, body: Body)

  /** An `/v0/entity` request: the `id` and `replicas` query parameters
      (missing ones are `None`), the method, whether the internal-marker
      header is present, and the body. */
  datatype EntityRequest = EntityRequest(
    id: Option<string>,
    replicas: Option<string>,
    verb: Method,
    internal: bool,
    body: seq<byte>)

  /** A node's fixed configuration after construction. */
  datatype Node = Node(port: int, quorum: ReplicasParam, peers: seq<string>)

  /** Constructing the service: the default quorum is the majority of the
      configured cluster (construction fails for an empty one), and the
      peer list is the sorted list of addresses not taken for this node. */
  function Init(port: int, topology: seq<string>): (r: Result<Node, QuorumError>)
    requires IsInt32(|topology|)
    ensures r.Success? <==> |topology| >= 1
    ensures r.Success? ==> r.value.port == port && r.value.quorum.Valid()
    ensures r.Success? ==> r.value.quorum == ReplicasParam(|topology| / 2 + 1, |topology|)
    ensures r.Success? ==> 2 * r.value.quorum.ask > |topology|
    ensures r.Success? ==> Sorted(r.value.peers)
    ensures r.Success? ==> forall a :: a in r.value.peers <==> a in topology && !IsSelf(a, port)
    ensures r.Success? ==> forall a :: multiset(r.value.peers)[a] == if IsSelf(a, port) then 0 else multiset(topology)[a]
    ensures |topology| == 0 ==> r == Failure(FromNotPositive)
  {
    match ByNodeCount(|topology|)
    case Failure(e) => Failure(e)
    case Success(q) => Success(Node(port, q, Peers(topology, port)))
  }

  // ---------------------------------------------------------------------
  // Validation and dispatch
  // ---------------------------------------------------------------------

  /** What the handler decided to do with a request before touching
      storage: reject it outright, or run one operation with the quorum
      it settled on. */
  datatype Plan =
    | Reject(response: Response)
    | Read(id: string, internal: bool, q: ReplicasParam)
    | Write(id: string, value: seq<byte>, internal: bool, q: ReplicasParam)
    | Remove(id: string, internal: bool, q: ReplicasParam)

  predicate MissingOrBlank(id: Option<string>) {
    id.None? || IsBlank(id.value)
  }

  predicate MalformedReplicas(replicas: Option<string>) {
    replicas.Some? && ByRequestParam(replicas.value).Failure?
  }

  /** The quorum a request asks for: its own `replicas` parameter when it
      carries one, otherwise the node's default. */
  function RequestedQuorum(req: EntityRequest, default: ReplicasParam): Result<ReplicasParam, ParamError> {
    if req.replicas.Some? then ByRequestParam(req.replicas.value) else Success(default)
  }

  /** A request that passes the `entity` handler's checks and is run. */
  predicate Accepted(req: EntityRequest, default: ReplicasParam) {
    !MissingOrBlank(req.id) && RequestedQuorum(req, default).Success? && req.verb != OtherMethod
  }

  /** The `entity` handler's checks, in source order: a missing or blank
      `id`, then a `replicas` parameter that does not parse (an absent one
      falls back to the node's default quorum), then a method other than
      GET, PUT and DELETE; each is a 400 without any storage access. */
  function Route(req: EntityRequest, default: ReplicasParam): (p: Plan)
    requires default.Valid()
    ensures p.Reject? <==>
      MissingOrBlank(req.id) || MalformedReplicas(req.replicas) || req.verb == OtherMethod
    ensures p.Reject? ==> p.response == Response(BAD_REQUEST, Empty)
    ensures !p.Reject? ==> p.id == req.id.value && !IsBlank(p.id) && p.internal == req.internal
    ensures !p.Reject? ==> p.q.Valid()
    ensures !p.Reject? && req.replicas.None? ==> p.q == default
    ensures !p.Reject? && req.replicas.Some? ==> ByRequestParam(req.replicas.value) == Success(p.q)
    ensures p.Read? <==> !p.Reject? && req.verb == GET
    ensures p.Write? <==> !p.Reject? && req.verb == PUT
    ensures p.Remove? <==> !p.Reject? && req.verb == DELETE
    ensures p.Write? ==> p.value == req.body
  {
    if MissingOrBlank(req.id) then Reject(Response(BAD_REQUEST, Empty))
    else
      match RequestedQuorum(req, default)
      case Failure(_) => Reject(Response(BAD_REQUEST, Empty))
      case Success(q) =>
        match req.verb
        case GET => Read(req.id.value, req.internal, q)
        case PUT => Write(req.id.value, req.body, req.internal, q)
        case DELETE => Remove(req.id.value, req.internal, q)
        case OtherMethod => Reject(Response(BAD_REQUEST, Empty))
  }

  // ---------------------------------------------------------------------
  // Tallying
  // ---------------------------------------------------------------------

  /** How many results are not `Error` (`filter { it !is ErrorData }.count()`). */
  function CountAnswered(results: seq<Data>): (n: nat)
    ensures n == |results| - multiset(results)[Error]
  {
    if |results| == 0 then 0
    else
      var prefix := results[..|results| - 1];
      assert results == prefix + [results[|results| - 1]];
      CountAnswered(prefix) + if results[|results| - 1].Error? then 0 else 1
  }

  /** How many acknowledgements are `true` (`filter { it }.count()`). */
  function CountAcks(acks: seq<bool>): (n: nat)
    ensures n == multiset(acks)[true]
  {
    if |acks| == 0 then 0
    else
      var prefix := acks[..|acks| - 1];
      assert acks == prefix + [acks[|acks| - 1]];
      CountAcks(prefix) + if acks[|acks| - 1] then 1 else 0
  }

  /** The results an external operation tallies: the local one first, then
      the fan-out's, which is only consulted when `from > 1`. */
  function Gathered<T>(local: T, remote: seq<T>, q: ReplicasParam): (results: seq<T>)
    ensures |results| >= 1 && results[0] == local
    ensures results[1..] == if q.from > 1 then remote else []
    ensures |results| == 1 + if q.from > 1 then |remote| else 0
  {
    [local] + if q.from > 1 then remote else []
  }

  // ---------------------------------------------------------------------
  // GET
  // ---------------------------------------------------------------------

  /** An internal GET answers with this node's own record, serialized,
      under a status that classifies it; it never fans out. */
  function GetInternal(local: Attempt<Data>): (r: Response)
    ensures local.Threw? ==> r == Response(INTERNAL_ERROR, Empty)
    ensures local.Done? ==> r.body == Serialized(local.value)
    ensures local.Done? && local.value.Exists? ==> r.status == OK
    ensures local.Done? && (local.value.Absent? || local.value.Deleted?) ==> r.status == NOT_FOUND
    ensures local.Done? && local.value.Error? ==> r.status == GATEWAY_TIMEOUT
  {
    match local
    case Threw => Response(INTERNAL_ERROR, Empty)
    case Done(data) =>
      match data
      case Absent => Response(NOT_FOUND, Serialized(data))
      case Deleted(_) => Response(NOT_FOUND, Serialized(data))
      case Exists(_, _) => Response(OK, Serialized(data))
      case Error => Response(GATEWAY_TIMEOUT, Serialized(data))
  }

  /** An external GET: fewer than `ask` answering replicas is a 504 whatever
      the merge says; otherwise the merged winner decides between the value
      (200) and not-found (404). */
  function GetExternal(local: Attempt<Data>, remote: seq<Data>, q: ReplicasParam): (r: Response)
    requires q.Valid()
    ensures local.Threw? ==> r == Response(INTERNAL_ERROR, Empty)
    ensures local.Done? ==> r.status in {OK, NOT_FOUND, GATEWAY_TIMEOUT}
    ensures local.Done? ==>
      (r.status == GATEWAY_TIMEOUT <==> CountAnswered(Gathered(local.value, remote, q)) < q.ask)
    ensures local.Done? && r.status == OK ==>
      var w := Merge(Gathered(local.value, remote, q));
      w.Exists? && r.body == Value(w.value)
    ensures local.Done? && r.status == NOT_FOUND ==> !Merge(Gathered(local.value, remote, q)).Exists?
    ensures r.status != OK ==> r.body == Empty
  {
    match local
    case Threw => Response(INTERNAL_ERROR, Empty)
    case Done(data) =>
      var results := Gathered(data, remote, q);
      var winner := Merge(results);
      if CountAnswered(results) < q.ask then Response(GATEWAY_TIMEOUT, Empty)
      else
        match winner
        case Exists(_, value) => Response(OK, Value(value))
        case Absent => Response(NOT_FOUND, Empty)
        case Deleted(_) => Response(NOT_FOUND, Empty)
        case Error => Response(GATEWAY_TIMEOUT, Empty)
  }

  /** A 200 serves the value of a live result whose timestamp is at least
      that of every live value and tombstone gathered. */
  lemma GetServesNewestValue(data: Data, remote: seq<Data>, q: ReplicasParam)
    requires q.Valid()
    requires GetExternal(Done(data), remote, q).status == OK
    ensures var results := Gathered(data, remote, q);
      exists i :: 0 <= i < |results| && results[i].Exists? &&
        GetExternal(Done(data), remote, q).body == Value(results[i].value) &&
        forall j :: 0 <= j < |results| && results[j].Versioned() ==> results[j].time <= results[i].time
  {
    var results := Gathered(data, remote, q);
    var w := Merge(results);
    var k :| 0 <= k < |results| && results[k] == w &&
      forall j :: 0 <= j < k && results[j].Versioned() ==> results[j].time < w.time;
    assert results[k].Exists?;
  }

  /** With the quorum met, a live value newer than every tombstone is
      served: deletes only hide values written no later than themselves. */
  lemma GetFindsValueNewerThanTombstones(data: Data, remote: seq<Data>, q: ReplicasParam, i: nat)
    requires q.Valid()
    requires var results := Gathered(data, remote, q);
      && CountAnswered(results) >= q.ask
      && i < |results| && results[i].Exists?
      && forall j :: 0 <= j < |results| && results[j].Deleted? ==> results[j].time < results[i].time
    ensures GetExternal(Done(data), remote, q).status == OK
  {
    var results := Gathered(data, remote, q);
    var w := Merge(results);
    assert w.Versioned();
    assert results[i].time <= w.time;
    var k :| 0 <= k < |results| && results[k] == w &&
      forall j :: 0 <= j < k && results[j].Versioned() ==> results[j].time < w.time;
    assert !results[k].Deleted?;
  }

  /** A 404 means no live value was gathered, or each one is matched by a
      tombstone at least as new. */
  lemma GetNotFoundMeansShadowed(data: Data, remote: seq<Data>, q: ReplicasParam)
    requires q.Valid()
    requires GetExternal(Done(data), remote, q).status == NOT_FOUND
    ensures var results := Gathered(data, remote, q);
      forall i :: 0 <= i < |results| && results[i].Exists? ==>
        exists j :: 0 <= j < |results| && results[j].Deleted? && results[j].time >= results[i].time
  {
    var results := Gathered(data, remote, q);
    var w := Merge(results);
    forall i | 0 <= i < |results| && results[i].Exists?
      ensures exists j :: 0 <= j < |results| && results[j].Deleted? && results[j].time >= results[i].time
    {
      assert w.Versioned();
      var k :| 0 <= k < |results| && results[k] == w &&
        forall j :: 0 <= j < k && results[j].Versioned() ==> results[j].time < w.time;
      assert results[k].Deleted? && results[k].time >= results[i].time;
    }
  }

  // ---------------------------------------------------------------------
  // PUT and DELETE
  // ---------------------------------------------------------------------

  /** An internal PUT stores the value and answers 201 whatever storage
      reported; only a throwing storage call changes that, to 500. */
  function PutInternal(local: Attempt<bool>): (r: Response)
    ensures r.body == Empty
    ensures r.status == CREATED <==> local.Done?
    ensures local.Threw? ==> r.status == INTERNAL_ERROR
  {
    if local.Done? then Response(CREATED, Empty) else Response(INTERNAL_ERROR, Empty)
  }

  /** An internal DELETE writes a tombstone and answers 202 whatever
      storage reported; only a throwing storage call changes that, to 500. */
  function DeleteInternal(local: Attempt<bool>): (r: Response)
    ensures r.body == Empty
    ensures r.status == ACCEPTED <==> local.Done?
    ensures local.Threw? ==> r.status == INTERNAL_ERROR
  {
    if local.Done? then Response(ACCEPTED, Empty) else Response(INTERNAL_ERROR, Empty)
  }

  /** The write tally shared by external PUT and DELETE: `success` when at
      least `ask` of the gathered acknowledgements are positive, 504
      otherwise, 500 when the local storage call threw. */
  function TallyWrite(local: Attempt<bool>, remote: seq<bool>, q: ReplicasParam, success: int): (r: Response)
    requires q.Valid()
    requires success == CREATED || success == ACCEPTED
    ensures r.body == Empty
    ensures local.Threw? ==> r.status == INTERNAL_ERROR
    ensures local.Done? ==> (r.status == success <==> CountAcks(Gathered(local.value, remote, q)) >= q.ask)
    ensures local.Done? ==> (r.status == GATEWAY_TIMEOUT <==> CountAcks(Gathered(local.value, remote, q)) < q.ask)
  {
    if local.Threw? then Response(INTERNAL_ERROR, Empty)
    else if CountAcks(Gathered(local.value, remote, q)) < q.ask then Response(GATEWAY_TIMEOUT, Empty)
    else Response(success, Empty)
  }

  /** An external PUT: 201 when at least `ask` replicas stored the value. */
  function PutExternal(local: Attempt<bool>, remote: seq<bool>, q: ReplicasParam): (r: Response)
    requires q.Valid()
    ensures r.body == Empty
    ensures local.Threw? ==> r.status == INTERNAL_ERROR
    ensures local.Done? ==> r.status in {CREATED, GATEWAY_TIMEOUT}
    ensures local.Done? ==> (r.status == CREATED <==> CountAcks(Gathered(local.value, remote, q)) >= q.ask)
  {
    TallyWrite(local, remote, q, CREATED)
  }

  /** An external DELETE: 202 when at least `ask` replicas wrote the
      tombstone. */
  function DeleteExternal(local: Attempt<bool>, remote: seq<bool>, q: ReplicasParam): (r: Response)
    requires q.Valid()
    ensures r.body == Empty
    ensures local.Threw? ==> r.status == INTERNAL_ERROR
    ensures local.Done? ==> r.status in {ACCEPTED, GATEWAY_TIMEOUT}
    ensures local.Done? ==> (r.status == ACCEPTED <==> CountAcks(Gathered(local.value, remote, q)) >= q.ask)
  {
    TallyWrite(local, remote, q, ACCEPTED)
  }

  /** External PUT and DELETE apply the same quorum rule: one succeeds
      exactly when the other would on the same acknowledgements. */
  lemma DeleteMirrorsPut(local: Attempt<bool>, remote: seq<bool>, q: ReplicasParam)
    requires q.Valid()
    ensures DeleteExternal(local, remote, q).status == ACCEPTED <==> PutExternal(local, remote, q).status == CREATED
    ensures DeleteExternal(local, remote, q).status == GATEWAY_TIMEOUT <==>
      PutExternal(local, remote, q).status == GATEWAY_TIMEOUT
  {
  }

  /** Turning failed acknowledgements into successful ones never lowers
      the count. */
  lemma {:induction false} CountAcksMonotone(a: seq<bool>, b: seq<bool>)
    requires |a| == |b|
    requires forall i :: 0 <= i < |a| && a[i] ==> b[i]
    ensures CountAcks(a) <= CountAcks(b)
  {
    if |a| > 0 {
      var n := |a| - 1;
      assert forall i :: 0 <= i < n && a[..n][i] ==> b[..n][i];
      CountAcksMonotone(a[..n], b[..n]);
    }
  }

  /** Turning error results into answers never lowers the count. */
  lemma {:induction false} CountAnsweredMonotone(a: seq<Data>, b: seq<Data>)
    requires |a| == |b|
    requires forall i :: 0 <= i < |a| && !a[i].Error? ==> !b[i].Error?
    ensures CountAnswered(a) <= CountAnswered(b)
  {
    if |a| > 0 {
      var n := |a| - 1;
      assert forall i :: 0 <= i < n && !a[..n][i].Error? ==> !b[..n][i].Error?;
      CountAnsweredMonotone(a[..n], b[..n]);
    }
  }

  /** A write quorum, once met, stays met when more replicas acknowledge. */
  lemma WriteQuorumMonotone(ok1: bool, remote1: seq<bool>, ok2: bool, remote2: seq<bool>, q: ReplicasParam)
    requires q.Valid()
    requires ok1 ==> ok2
    requires |remote1| == |remote2| && forall i :: 0 <= i < |remote1| && remote1[i] ==> remote2[i]
    requires PutExternal(Done(ok1), remote1, q).status == CREATED
    ensures PutExternal(Done(ok2), remote2, q).status == CREATED
  {
    var g1, g2 := Gathered(ok1, remote1, q), Gathered(ok2, remote2, q);
    assert forall i :: 0 <= i < |g1| && g1[i] ==> g2[i] by {
      forall i | 0 <= i < |g1| && g1[i] ensures g2[i] {
        if i > 0 { assert g1[i] == remote1[i - 1] && g2[i] == remote2[i - 1]; }
      }
    }
    CountAcksMonotone(g1, g2);
  }

  /** A read quorum, once met, stays met when more replicas answer. */
  lemma ReadQuorumMonotone(d1: Data, remote1: seq<Data>, d2: Data, remote2: seq<Data>, q: ReplicasParam)
    requires q.Valid()
    requires !d1.Error? ==> !d2.Error?
    requires |remote1| == |remote2| && forall i :: 0 <= i < |remote1| && !remote1[i].Error? ==> !remote2[i].Error?
    requires GetExternal(Done(d1), remote1, q).status != GATEWAY_TIMEOUT
    ensures GetExternal(Done(d2), remote2, q).status != GATEWAY_TIMEOUT
  {
    var g1, g2 := Gathered(d1, remote1, q), Gathered(d2, remote2, q);
    assert forall i :: 0 <= i < |g1| && !g1[i].Error? ==> !g2[i].Error? by {
      forall i | 0 <= i < |g1| && !g1[i].Error? ensures !g2[i].Error? {
        if i > 0 { assert g1[i] == remote1[i - 1] && g2[i] == remote2[i - 1]; }
      }
    }
    CountAnsweredMonotone(g1, g2);
  }

  // ---------------------------------------------------------------------
  // The whole request
  // ---------------------------------------------------------------------

  /** What storage and the fan-out produced while one request was served. */
  datatype Replies = Replies(
    localRead: Attempt<Data>,
    remoteReads: seq<Data>,
    localWrite: Attempt<bool>,
    remoteWrites: seq<bool>)

  /** Runs a plan: internal requests touch only local storage, external
      ones tally the local and remote results. `HandleEntity`'s contract
      states what this step answers for each method and quorum. */
  function Serve(p: Plan, replies: Replies): Response
    requires !p.Reject? ==> p.q.Valid()
  {
    match p
    case Reject(response) => response
    case Read(_, internal, q) =>
      if internal then GetInternal(replies.localRead)
      else GetExternal(replies.localRead, replies.remoteReads, q)
    case Write(_, _, internal, q) =>
      if internal then PutInternal(replies.localWrite)
      else PutExternal(replies.localWrite, replies.remoteWrites, q)
    case Remove(_, internal, q) =>
      if internal then DeleteInternal(replies.localWrite)
      else DeleteExternal(replies.localWrite, replies.remoteWrites, q)
  }

  /** A node's answer to one `/v0/entity` request. A rejected request is a
      400. An accepted one runs the operation its method names, under the
      quorum the request asked for (the node's default when it asked for
      none): an external GET is a 504 below `ask` answering replicas and
      otherwise serves the merged winner, an external PUT or DELETE
      succeeds exactly when `ask` acknowledgements are gathered, an
      internal request answers from local storage alone, and a throwing
      local storage call is a 500. */
  function HandleEntity(node: Node, req: EntityRequest, replies: Replies): (r: Response)
    requires node.quorum.Valid()
    ensures r.status in {OK, CREATED, ACCEPTED, BAD_REQUEST, NOT_FOUND, INTERNAL_ERROR, GATEWAY_TIMEOUT}
    ensures r.body.Value? ==> r.status == OK && req.verb == GET && !req.internal
    ensures r.body.Serialized? ==> req.verb == GET && req.internal
    ensures r.status == BAD_REQUEST <==> !Accepted(req, node.quorum)
    ensures !Accepted(req, node.quorum) ==> r == Response(BAD_REQUEST, Empty)
    ensures Accepted(req, node.quorum) && req.verb == GET && replies.localRead.Threw? ==>
      r == Response(INTERNAL_ERROR, Empty)
    ensures Accepted(req, node.quorum) && req.verb != GET && replies.localWrite.Threw? ==>
      r == Response(INTERNAL_ERROR, Empty)
    ensures Accepted(req, node.quorum) && req.verb == GET && !req.internal && replies.localRead.Done? ==>
      var q := RequestedQuorum(req, node.quorum).value;
      var results := Gathered(replies.localRead.value, replies.remoteReads, q);
      && (r.status == GATEWAY_TIMEOUT <==> CountAnswered(results) < q.ask)
      && (CountAnswered(results) >= q.ask ==> (r.status == OK <==> Merge(results).Exists?))
      && (CountAnswered(results) >= q.ask ==> (r.status == NOT_FOUND <==> !Merge(results).Exists?))
      && (r.status == OK ==> r.body == Value(Merge(results).value))
    ensures Accepted(req, node.quorum) && req.verb == PUT && !req.internal && replies.localWrite.Done? ==>
      var q := RequestedQuorum(req, node.quorum).value;
      var acks := CountAcks(Gathered(replies.localWrite.value, replies.remoteWrites, q));
      r == Response(if acks >= q.ask then CREATED else GATEWAY_TIMEOUT, Empty)
    ensures Accepted(req, node.quorum) && req.verb == DELETE && !req.internal && replies.localWrite.Done? ==>
      var q := RequestedQuorum(req, node.quorum).value;
      var acks := CountAcks(Gathered(replies.localWrite.value, replies.remoteWrites, q));
      r == Response(if acks >= q.ask then ACCEPTED else GATEWAY_TIMEOUT, Empty)
    ensures Accepted(req, node.quorum) && req.verb == GET && req.internal ==> r == GetInternal(replies.localRead)
    ensures Accepted(req, node.quorum) && req.verb == PUT && req.internal && replies.localWrite.Done? ==>
      r == Response(CREATED, Empty)
    ensures Accepted(req, node.quorum) && req.verb == DELETE && req.internal && replies.localWrite.Done? ==>
      r == Response(ACCEPTED, Empty)
  {
    var p := Route(req, node.quorum);
    assert !p.Reject? ==> p.q == RequestedQuorum(req, node.quorum).value;
    Serve(p, replies)
  }

  /** A rejected request is a 400 whatever storage and the peers would
      have said: nothing is read or written for it. */
  lemma RejectedRequestTouchesNothing(node: Node, req: EntityRequest, r1: Replies, r2: Replies)
    requires node.quorum.Valid()
    requires MissingOrBlank(req.id) || MalformedReplicas(req.replicas) || req.verb == OtherMethod
    ensures HandleEntity(node, req, r1) == HandleEntity(node, req, r2) == Response(BAD_REQUEST, Empty)
  {
  }

  /** An internal request never fans out: its answer does not depend on
      anything the peers could report. */
  lemma InternalRequestIgnoresPeers(node: Node, req: EntityRequest, r1: Replies, r2: Replies)
    requires node.quorum.Valid() && req.internal
    requires r1.localRead == r2.localRead && r1.localWrite == r2.localWrite
    ensures HandleEntity(node, req, r1) == HandleEntity(node, req, r2)
  {
  }

  /** With `ask = 2` of `from = 3` and only one answering replica, a GET
      reports 504 even though that one replica holds the value. */
  lemma OneOfThreeReadIsNotAQuorum(v: seq<byte>)
    ensures GetExternal(Done(Exists(1, v)), [Error, Error], ReplicasParam(2, 3)).status == GATEWAY_TIMEOUT
  {
    var results := Gathered(Exists(1, v), [Error, Error], ReplicasParam(2, 3));
    assert results == [Exists(1, v), Error, Error];
    assert multiset(results)[Error] == 2;
  }

  /** Likewise one acknowledgement of three is not a write quorum of two,
      for PUT and for DELETE. */
  lemma OneOfThreeWriteIsNotAQuorum()
    ensures PutExternal(Done(true), [false, false], ReplicasParam(2, 3)).status == GATEWAY_TIMEOUT
    ensures DeleteExternal(Done(true), [false, false], ReplicasParam(2, 3)).status == GATEWAY_TIMEOUT
  {
    var acks := Gathered(true, [false, false], ReplicasParam(2, 3));
    assert acks == [true, false, false];
    assert multiset(acks)[true] == 1;
  }

  /** With a single replica (`1/1`) an external GET answers like an internal
      one: the local record alone decides, and peers are never consulted. */
  lemma SingleReplicaGetIsLocal(data: Data, remote: seq<Data>)
    ensures GetExternal(Done(data), remote, ReplicasParam(1, 1)).status == GetInternal(Done(data)).status
  {
    assert Gathered(data, remote, ReplicasParam(1, 1)) == [data];
    assert multiset([data])[Error] == if data.Error? then 1 else 0;
    assert Merge([data]) == if data.Versioned() then data else Absent by {
      assert Merge([data][..0]) == Absent;
    }
  }
}

=== FILE: legacy_service.dfy ===
/** The earlier, single-node request handler (`KVServiceImpl.java`): its
    hand-written query-string parser and the validation and method dispatch
    of `/v0/entity`. */
module LegacyService {
  import opened Wrappers
  import opened Text

  const ID_KEY := "id"

  // ---------------------------------------------------------------------
  // queryToMap
  // ---------------------------------------------------------------------

  /** The key and value one `&`-separated segment contributes, if any:
      `segment.split("=")`, skipped when that split is empty, the value `""`
      when there is a single field, fields past the second ignored. */
  function SegmentEntry(segment: string): (e: Option<(string, string)>)
    ensures e.Some? ==> e.value.0 == Before(segment, '=') && '=' !in e.value.1
    ensures '=' !in segment ==> e == Some((segment, ""))
  {
    var pair := JavaSplit(segment, '=');
    assert segment != [] && '=' !in segment ==> SplitAll(segment, '=') == [segment];
    if |pair| == 0 then None
    else Some((pair[0], if |pair| >= 2 then pair[1] else ""))
  }

  /** A segment's entry described directly on its characters: nothing for a
      non-empty run of `=` only; otherwise the text before the first `=` as
      the key and the text between the first and the second `=` (or up to
      the end) as the value. */
  function SegmentEntrySpec(segment: string): Option<(string, string)> {
    if |segment| > 0 && OnlySeparators(segment, '=') then None
    else Some((Before(segment, '='), Before(After(segment, '='), '=')))
  }

  predicate OnlySeparators(s: string, sep: char) {
    forall i :: 0 <= i < |s| ==> s[i] == sep
  }

  predicate AllEmpty(fields: seq<string>) {
    forall i :: 0 <= i < |fields| ==> fields[i] == []
  }

  lemma AllEmptyCons(head: string, tail: seq<string>)
    ensures AllEmpty([head] + tail) <==> head == [] && AllEmpty(tail)
  {
    var fields := [head] + tail;
    if head == [] && AllEmpty(tail) {
      forall i | 0 <= i < |fields| ensures fields[i] == [] {
        if i > 0 { assert fields[i] == tail[i - 1]; }
      }
    }
    if AllEmpty(fields) {
      assert head == fields[0];
      forall i | 0 <= i < |tail| ensures tail[i] == [] {
        assert tail[i] == fields[i + 1];
      }
    }
  }

  lemma OnlySeparatorsCons(head: string, rest: string, sep: char)
    requires sep !in head
    ensures OnlySeparators(head + [sep] + rest, sep) <==> head == [] && OnlySeparators(rest, sep)
  {
    var s := head + [sep] + rest;
    if head == [] && OnlySeparators(rest, sep) {
      forall i | 0 <= i < |s| ensures s[i] == sep {
        if i > 0 { assert s[i] == rest[i - 1]; }
      }
    }
    if OnlySeparators(s, sep) {
      assert s[0] == sep;
      assert head <= s;
      forall i | 0 <= i < |rest| ensures rest[i] == sep {
        assert rest[i] == s[1 + i];
      }
    }
  }

  /** All fields of a split are empty exactly when the text consists of
      separators only. */
  lemma {:induction false} AllFieldsEmpty(s: string, sep: char)
    ensures AllEmpty(SplitAll(s, sep)) <==> OnlySeparators(s, sep)
    decreases |s|
  {
    if sep in s {
      var head, rest := Before(s, sep), After(s, sep);
      AllFieldsEmpty(rest, sep);
      assert SplitAll(s, sep) == [head] + SplitAll(rest, sep);
      AllEmptyCons(head, SplitAll(rest, sep));
      OnlySeparatorsCons(head, rest, sep);
    } else if |s| > 0 {
      assert s[0] != sep by { assert s[0] in s; }
      assert !AllEmpty(SplitAll(s, sep)) by { assert SplitAll(s, sep)[0] == s; }
    }
  }

  /** The Java-split based parsing of a segment agrees with the direct
      description. */
  lemma SegmentEntryMatchesSpec(segment: string)
    ensures SegmentEntry(segment) == SegmentEntrySpec(segment)
  {
    if segment != [] {
      var fields := SplitAll(segment, '=');
      var pair := JavaSplit(segment, '=');
      AllFieldsEmpty(segment, '=');
      JavaSplitEmpty(segment, '=');
      if |pair| > 0 {
        assert pair[0] == fields[0];
        if '=' in segment {
          SecondField(segment, '=');
          assert |pair| == 1 ==> fields[1] == [];
          assert |pair| > 1 ==> pair[1] == fields[1];
        }
      }
    }
  }

  /** Java's split of a non-empty text comes out empty exactly when every
      field is empty. */
  lemma JavaSplitEmpty(s: string, sep: char)
    requires s != []
    ensures |JavaSplit(s, sep)| == 0 <==> AllEmpty(SplitAll(s, sep))
  {
    var fields := SplitAll(s, sep);
    var pair := JavaSplit(s, sep);
    assert |pair| > 0 ==> pair[|pair| - 1] == fields[|pair| - 1];
  }

  /** With a separator present, the second field runs from the first
      separator to the next. */
  lemma SecondField(s: string, sep: char)
    requires sep in s
    ensures |SplitAll(s, sep)| >= 2
    ensures SplitAll(s, sep)[1] == Before(After(s, sep), sep)
  {
    assert SplitAll(s, sep) == [Before(s, sep)] + SplitAll(After(s, sep), sep);
  }

  type Entry = Option<(string, string)>

  /** Whether an entry puts `key` into the map. */
  predicate Puts(entry: Entry, key: string) {
    entry.Some? && entry.value.0 == key
  }

  /** Whether a segment sets `key`. */
  predicate SetsKey(segment: string, key: string) {
    Puts(SegmentEntry(segment), key)
  }

  /** Each segment's entry, in order. */
  function Entries(segments: seq<string>): (entries: seq<Entry>)
    ensures |entries| == |segments|
    ensures forall i :: 0 <= i < |segments| ==> entries[i] == SegmentEntry(segments[i])
  {
    seq(|segments|, i requires 0 <= i < |segments| => SegmentEntry(segments[i]))
  }

  /** Puts the entries into a map in order (`HashMap.put`). */
  function Collect(entries: seq<Entry>): (m: map<string, string>)
    ensures forall k :: k in m ==> exists i :: 0 <= i < |entries| && entries[i] == Some((k, m[k]))
  {
    if |entries| == 0 then map[]
    else
      var prefix := entries[..|entries| - 1];
      var m := Collect(prefix);
      assert forall i :: 0 <= i < |prefix| ==> prefix[i] == entries[i];
      match entries[|entries| - 1]
      case None => m
      case Some((k, v)) => m[k := v]
  }

  /** One step of the fold: the last entry adds its key, if any. */
  lemma CollectKeyStep(entries: seq<Entry>, k: string)
    requires |entries| > 0
    ensures k in Collect(entries) <==>
      k in Collect(entries[..|entries| - 1]) || Puts(entries[|entries| - 1], k)
  {
  }

  /** A key is in the collected map exactly when some entry puts it. */
  lemma {:induction false} CollectKeys(entries: seq<Entry>)
    ensures forall k :: k in Collect(entries) <==> exists i :: 0 <= i < |entries| && Puts(entries[i], k)
  {
    if |entries| > 0 {
      var prefix := entries[..|entries| - 1];
      CollectKeys(prefix);
      forall k ensures k in Collect(entries) <==> exists i :: 0 <= i < |entries| && Puts(entries[i], k) {
        CollectKeyStep(entries, k);
        if k in Collect(prefix) {
          var i :| 0 <= i < |prefix| && Puts(prefix[i], k);
          assert entries[i] == prefix[i];
        }
        if exists i :: 0 <= i < |entries| && Puts(entries[i], k) {
          var i :| 0 <= i < |entries| && Puts(entries[i], k);
          if i < |prefix| {
            assert prefix[i] == entries[i];
          }
        }
      }
    }
  }

  /** One step of the fold for a key the last entry does not put. */
  lemma CollectKeepsStep(entries: seq<Entry>, k: string)
    requires |entries| > 0 && !Puts(entries[|entries| - 1], k)
    requires k in Collect(entries[..|entries| - 1])
    ensures k in Collect(entries)
    ensures Collect(entries)[k] == Collect(entries[..|entries| - 1])[k]
  {
  }

  /** The value of a key is the one from the last entry that puts it. */
  lemma {:induction false} CollectLastWins(entries: seq<Entry>, i: nat, k: string, v: string)
    requires i < |entries| && entries[i] == Some((k, v))
    requires forall j :: i < j < |entries| ==> !Puts(entries[j], k)
    ensures k in Collect(entries) && Collect(entries)[k] == v
  {
    var prefix := entries[..|entries| - 1];
    if i < |entries| - 1 {
      assert prefix[i] == entries[i];
      forall j | i < j < |prefix| ensures !Puts(prefix[j], k) {
        assert prefix[j] == entries[j];
      }
      CollectLastWins(prefix, i, k, v);
      CollectKeepsStep(entries, k);
    }
  }

  /** `queryToMap`: an absent query gives an empty map; otherwise the query
      is split at `&` as Java 8's `splitAsStream` does (no segment for an
      empty query, trailing empty segments dropped) and each segment's
      entry is put into the map in order. */
  function QueryToMap(query: Option<string>): (m: map<string, string>)
    ensures query.None? || query == Some([]) ==> m == map[]
    ensures query.Some? ==> forall k :: k in m <==>
      exists i :: 0 <= i < |StreamSplit(query.value, '&')| && SetsKey(StreamSplit(query.value, '&')[i], k)
    ensures query.Some? ==> forall k :: k in m ==>
      exists i :: 0 <= i < |StreamSplit(query.value, '&')| && SegmentEntry(StreamSplit(query.value, '&')[i]) == Some((k, m[k]))
  {
    match query
    case None => map[]
    case Some(q) =>
      var segments := StreamSplit(q, '&');
      var entries := Entries(segments);
      CollectKeys(entries);
      assert q == [] ==> segments == [];
      Collect(entries)
  }

  /** A repeated key takes the value of its last occurrence: the value of
      a key set by segment `i` and by no later segment. */
  lemma LastOccurrenceWins(q: string, i: nat, k: string, v: string)
    requires i < |StreamSplit(q, '&')| && SegmentEntry(StreamSplit(q, '&')[i]) == Some((k, v))
    requires forall j :: i < j < |StreamSplit(q, '&')| ==> !SetsKey(StreamSplit(q, '&')[j], k)
    ensures k in QueryToMap(Some(q)) && QueryToMap(Some(q))[k] == v
  {
    var entries := Entries(StreamSplit(q, '&'));
    CollectLastWins(entries, i, k, v);
  }

  // ---------------------------------------------------------------------
  // handleRequestEntity
  // ---------------------------------------------------------------------

  datatype Operation = Get | Put | Delete

  /** What the handler does with a request: answer it at once with a
      status, or pass the id on to one operation's handler. */
  datatype Outcome = Reply(status: int) | Dispatch(op: Operation, id: string)

  /** The operation a request method names, compared case-insensitively. */
  function OperationOf(requestMethod: string): (op: Option<Operation>)
    ensures op == Some(Get) <==> ToUpperAscii(requestMethod) == "GET"
    ensures op == Some(Put) <==> ToUpperAscii(requestMethod) == "PUT"
    ensures op == Some(Delete) <==> ToUpperAscii(requestMethod) == "DELETE"
  {
    var upper := ToUpperAscii(requestMethod);
    if upper == "GET" then Some(Get)
    else if upper == "PUT" then Some(Put)
    else if upper == "DELETE" then Some(Delete)
    else None
  }

  /** `handleRequestEntity` up to the operation handlers: 404 without an
      `id` parameter, 400 for an empty one, 400 for a method other than GET,
      PUT or DELETE in any letter case. */
  function HandleRequestEntity(query: Option<string>, requestMethod: string): (r: Outcome)
    ensures r == Reply(404) <==> ID_KEY !in QueryToMap(query)
    ensures r == Reply(400) <==>
      ID_KEY in QueryToMap(query) && (QueryToMap(query)[ID_KEY] == "" || OperationOf(requestMethod).None?)
    ensures r.Dispatch? ==>
      && ID_KEY in QueryToMap(query)
      && r.id == QueryToMap(query)[ID_KEY] && r.id != ""
      && OperationOf(requestMethod) == Some(r.op)
    ensures ID_KEY in QueryToMap(query) && QueryToMap(query)[ID_KEY] != "" && OperationOf(requestMethod).Some? ==>
      r == Dispatch(OperationOf(requestMethod).value, QueryToMap(query)[ID_KEY])
  {
    var params := QueryToMap(query);
    if ID_KEY !in params then Reply(404)
    else if params[ID_KEY] == "" then Reply(400)
    else
      match OperationOf(requestMethod)
      case None => Reply(400)
      case Some(op) => Dispatch(op, params[ID_KEY])
  }

  /** The letter case of the method never matters. */
  lemma MethodCaseIgnored(query: Option<string>, m1: string, m2: string)
    requires ToUpperAscii(m1) == ToUpperAscii(m2)
    ensures HandleRequestEntity(query, m1) == HandleRequestEntity(query, m2)
  {
    assert OperationOf(m1) == OperationOf(m2);
  }

  /** A request without a query has no `id`. */
  lemma NoQueryIsNotFound(requestMethod: string)
    ensures HandleRequestEntity(None, requestMethod) == Reply(404)
  {
  }

  /** An empty query string (a URI ending in `?`) has no `id` either. */
  lemma EmptyQueryIsNotFound(requestMethod: string)
    ensures HandleRequestEntity(Some(""), requestMethod) == Reply(404)
  {
  }

  /** `?id=` names the parameter but leaves it empty: 400 whatever the
      method. */
  lemma EmptyIdIsBadRequest(requestMethod: string)
    ensures HandleRequestEntity(Some("id="), requestMethod) == Reply(400)
  {
    IdSegment("");
    assert "id=" + "" == "id=";
    assert '&' !in "id=";
    assert StreamSplit("id=", '&') == ["id="];
    LastOccurrenceWins("id=", 0, ID_KEY, "");
  }

  /** A `key=value` segment with a non-empty key and no further `=`
      sets `key` to `value`. */
  lemma KeyValueSegment(key: string, value: string)
    requires key != [] && '=' !in key && '=' !in value
    ensures SegmentEntry(key + "=" + value) == Some((key, value))
  {
    var segment := key + "=" + value;
    SegmentEntryMatchesSpec(segment);
    assert segment[0] != '=' by { assert segment[0] == key[0]; }
    SplitAtFirst(key, value, '=');
  }

  /** A segment without `=` sets itself to the empty value. */
  lemma BareKeySegment(key: string)
    requires '=' !in key
    ensures SegmentEntry(key) == Some((key, ""))
  {
    SegmentEntryMatchesSpec(key);
    assert |key| > 0 ==> key[0] in key;
  }

  /** Fields after the second `=`-field are dropped. */
  lemma ExtraValueFieldsDropped(key: string, value: string, rest: string)
    requires key != [] && '=' !in key && '=' !in value
    ensures SegmentEntry(key + "=" + value + "=" + rest) == Some((key, value))
  {
    var segment := key + "=" + value + "=" + rest;
    var after := value + "=" + rest;
    assert segment == key + "=" + after;
    SegmentEntryMatchesSpec(segment);
    assert segment[0] != '=' by { assert segment[0] == key[0]; }
    SplitAtFirst(key, after, '=');
    SplitAtFirst(value, rest, '=');
  }

  /** A segment of `=` only (`"="`, `"=="`, ...) contributes nothing. */
  lemma SeparatorsOnlySegmentSkipped(segment: string)
    requires segment != [] && OnlySeparators(segment, '=')
    ensures SegmentEntry(segment) == None
  {
    SegmentEntryMatchesSpec(segment);
  }

  /** Splitting two `&`-free, non-empty segments joined by `&` gives them
      back. */
  lemma SplitTwoSegments(s1: string, s2: string)
    requires '&' !in s1 && '&' !in s2 && s2 != []
    ensures StreamSplit(s1 + "&" + s2, '&') == [s1, s2]
  {
    assert s1 + "&" + s2 == Join([s1, s2], '&');
    SplitAllJoin([s1, s2], '&');
  }

  lemma CollectSameKeyTwice(k: string, v1: string, v2: string)
    ensures Collect([Some((k, v1)), Some((k, v2))]) == map[k := v2]
  {
    var entries: seq<Entry> := [Some((k, v1)), Some((k, v2))];
    assert entries[..1] == [Some((k, v1))];
    assert entries[..1][..0] == [];
    assert Collect(entries[..1]) == map[k := v1];
    assert Collect(entries) == map[k := v1][k := v2];
    assert map[k := v1][k := v2] == map[k := v2];
  }

  lemma Regroup(first: string, second: string)
    ensures "id=" + first + "&id=" + second == ("id=" + first) + "&" + ("id=" + second)
  {
  }

  /** The entries of `id=first&id=second`. */
  lemma DuplicateIdEntries(first: string, second: string)
    requires '=' !in first && '=' !in second && '&' !in first && '&' !in second
    ensures Entries(StreamSplit("id=" + first + "&id=" + second, '&')) ==
      [Some((ID_KEY, first)), Some((ID_KEY, second))]
  {
    var s1, s2 := "id=" + first, "id=" + second;
    Regroup(first, second);
    assert '&' !in s1 by { assert forall i :: 0 <= i < |s1| ==> s1[i] in "id=" || s1[i] in first; }
    SplitTwoSegments(s1, s2);
    IdSegment(first);
    IdSegment(second);
    EntriesOfTwo(s1, s2);
  }

  lemma EntriesOfTwo(s1: string, s2: string)
    ensures Entries([s1, s2]) == [SegmentEntry(s1), SegmentEntry(s2)]
  {
  }

  lemma IdSegment(value: string)
    requires '=' !in value
    ensures SegmentEntry("id=" + value) == Some((ID_KEY, value))
  {
    assert "id=" + value == ID_KEY + "=" + value;
    KeyValueSegment(ID_KEY, value);
  }

  /** A repeated `id` takes the last value. */
  lemma LastDuplicateWins(first: string, second: string)
    requires '=' !in first && '=' !in second && '&' !in first && '&' !in second
    ensures QueryToMap(Some("id=" + first + "&id=" + second)) == map[ID_KEY := second]
  {
    DuplicateIdEntries(first, second);
    CollectSameKeyTwice(ID_KEY, first, second);
  }
}

=== FILE: peer_client.dfy ===
/** The coordinator's side of a node-to-node call and of the fan-out batch:
    how a peer's HTTP answer to an internal request becomes the `Data` or
    `bool` the coordinator tallies, and what shape the batch result has.
    The transport itself is not modelled: a call either got a response or
    did not. */
module PeerClient {
  import opened Wrappers
  import opened Records
  import opened Replicas
  import opened Topology
  import opened Coordinator

  /** The outcome of one internal HTTP call: no response (connection
      failure, timeout, any exception in the client), or a response. */
  datatype Reply = Unreachable | Answered(response: Response)

  /** `GetRequest.call`: the record deserialized from the body of the
      peer's answer, whatever its status; `Error` when there was no answer
      or the body is not a serialized record. */
  function GetReplyData(reply: Reply): (d: Data)
    ensures reply.Unreachable? ==> d.Error?
    ensures reply.Answered? && reply.response.body.Serialized? ==> d == reply.response.body.data
    ensures reply.Answered? && !reply.response.body.Serialized? ==> d.Error?
  {
    match reply
    case Unreachable => Error
    case Answered(response) =>
      if response.body.Serialized? then response.body.data else Error
  }

  /** `PutRequest.call`: acknowledged exactly when the peer answered 201. */
  function PutReplyAck(reply: Reply): bool
  {
    reply.Answered? && reply.response.status == CREATED
  }

  /** `DeleteRequest.call`: acknowledged exactly when the peer answered 202. */
  function DeleteReplyAck(reply: Reply): bool
  {
    reply.Answered? && reply.response.status == ACCEPTED
  }

  /** An internal GET carries the peer's record to the coordinator
      unchanged, whichever status it was sent under; a peer whose storage
      threw is seen as `Error`. */
  lemma InternalGetRoundTrip(local: Attempt<Data>)
    ensures GetReplyData(Answered(GetInternal(local))) == if local.Done? then local.value else Error
  {
  }

  /** A peer acknowledges an internal PUT even when its storage reported
      failure; only a storage call that threw withholds the acknowledgement. */
  lemma InternalPutAckIgnoresStorageResult(local: Attempt<bool>)
    ensures PutReplyAck(Answered(PutInternal(local))) == local.Done?
  {
  }

  /** Likewise for an internal DELETE. */
  lemma InternalDeleteAckIgnoresStorageResult(local: Attempt<bool>)
    ensures DeleteReplyAck(Answered(DeleteInternal(local))) == local.Done?
  {
  }

  /** The shape of what `SequenceRequestProcessor.process` returns for a
      batch: one result per target, in target order, or nothing at all when
      the wait was interrupted or the executor failed. */
  predicate FanOutShape<T>(results: seq<T>, targets: seq<string>) {
    |results| == |targets| || |results| == 0
  }

  /** At most `1 + min(from - 1, |peers|)` results are ever tallied, so a
      quorum asking for more acknowledgements than that is never met: an
      external GET answers 504 whatever the replicas hold. */
  lemma GetBeyondReachTimesOut(data: Data, remote: seq<Data>, peers: seq<string>, q: ReplicasParam)
    requires q.Valid()
    requires FanOutShape(remote, FanOutTargets(peers, q))
    requires q.ask > 1 + |FanOutTargets(peers, q)|
    ensures GetExternal(Done(data), remote, q).status == GATEWAY_TIMEOUT
  {
    var results := Gathered(data, remote, q);
    assert |results| <= 1 + |FanOutTargets(peers, q)|;
  }

  /** The same bound for PUT. */
  lemma PutBeyondReachTimesOut(ok: bool, remote: seq<bool>, peers: seq<string>, q: ReplicasParam)
    requires q.Valid()
    requires FanOutShape(remote, FanOutTargets(peers, q))
    requires q.ask > 1 + |FanOutTargets(peers, q)|
    ensures PutExternal(Done(ok), remote, q).status == GATEWAY_TIMEOUT
  {
    var results := Gathered(ok, remote, q);
    assert |results| <= 1 + |FanOutTargets(peers, q)|;
    assert multiset(results)[true] <= |multiset(results)|;
  }

  /** An interrupted or failed fan-out leaves only the local result, which
      cannot meet a quorum of two or more. */
  lemma FailedFanOutMissesQuorum(data: Data, ok: bool, q: ReplicasParam)
    requires q.Valid() && q.ask >= 2
    ensures GetExternal(Done(data), [], q).status == GATEWAY_TIMEOUT
    ensures PutExternal(Done(ok), [], q).status == GATEWAY_TIMEOUT
    ensures DeleteExternal(Done(ok), [], q).status == GATEWAY_TIMEOUT
  {
    assert Gathered(data, [], q) == [data];
    assert Gathered(ok, [], q) == [ok];
    assert multiset([ok])[true] <= 1;
  }
}

=== FILE: records.dfy ===
/** What a replica reports about one key (`Data`) and the last-write-wins
    merge a coordinator applies to the reports it collects for a GET. */
module Records {

  newtype byte = x: int | 0 <= x < 256

  /** One replica's answer for one key at one moment. Exactly these four
      kinds exist; only a live value and a tombstone carry a timestamp
      (milliseconds, a Kotlin `Long`, only ever compared here). */
  datatype Data =
    | Exists(time: int, value: seq<byte>)  // a live value written at `time`
    | Deleted(time: int)                   // a tombstone written at `time`
    | Absent                               // the replica never saw the key
    | Error                                // the replica could not answer
  {
    /** Takes part in last-write-wins: carries a timestamp. */
    predicate Versioned() {
      Exists? || Deleted?
    }
  }

  /** The results that carry a timestamp, in their original order
      (`filter { it is ExistsData || it is DeletedData }`). */
  function Versions(results: seq<Data>): (r: seq<Data>)
    ensures |r| <= |results|
    ensures forall i :: 0 <= i < |r| ==> r[i].Versioned()
    ensures forall d :: d in r <==> d in results && d.Versioned()
    ensures forall d :: multiset(r)[d] == if d.Versioned() then multiset(results)[d] else 0
  {
    if |results| == 0 then []
    else
      var rest := Versions(results[..|results| - 1]);
      var last := results[|results| - 1];
      assert results == results[..|results| - 1] + [last];
      if last.Versioned() then rest + [last] else rest
  }

  /** The filter keeps the order of the results: filtering a concatenation
      is concatenating the filtered parts. */
  lemma {:induction false} VersionsAppend(a: seq<Data>, b: seq<Data>)
    ensures Versions(a + b) == Versions(a) + Versions(b)
    decreases |b|
  {
    if |b| == 0 {
      assert a + b == a;
    } else {
      var init, last := b[..|b| - 1], b[|b| - 1];
      assert a + b == (a + init) + [last];
      assert b == init + [last];
      VersionsAppend(a, init);
      VersionsSnoc(a + init, last);
      VersionsSnoc(init, last);
    }
  }

  /** One more result at the end is kept exactly when it carries a
      timestamp. */
  lemma VersionsSnoc(s: seq<Data>, d: Data)
    ensures Versions(s + [d]) == if d.Versioned() then Versions(s) + [d] else Versions(s)
  {
    assert (s + [d])[..|s|] == s;
  }

  /** The last-write-wins merge of a GET: among the results that carry a
      timestamp, the first one whose timestamp is maximal (Kotlin's `maxBy`
      replaces its candidate only on a strictly greater key), or `Absent`
      when none carries one. Filtering and the `maxBy` fold are fused into
      one pass over `results`. */
  function Merge(results: seq<Data>): (w: Data)
    ensures !w.Error?
    ensures w.Absent? <==> forall i :: 0 <= i < |results| ==> !results[i].Versioned()
    ensures w.Versioned() ==> forall i :: 0 <= i < |results| && results[i].Versioned() ==> results[i].time <= w.time
    ensures w.Versioned() ==>
      exists k :: 0 <= k < |results| && results[k] == w &&
        forall j :: 0 <= j < k && results[j].Versioned() ==> results[j].time < w.time
  {
    if |results| == 0 then Absent
    else
      var prefix := results[..|results| - 1];
      var best := Merge(prefix);
      var last := results[|results| - 1];
      assert forall i :: 0 <= i < |prefix| ==> prefix[i] == results[i];
      if last.Versioned() && (best.Absent? || last.time > best.time) then last
      else best
  }

  /** The merge picks the earliest of the results whose timestamp is
      maximal: timestamp ties go to the result listed first. */
  lemma MergePicksEarliestNewest(results: seq<Data>, i: nat)
    requires i < |results| && results[i].Versioned()
    requires forall j :: 0 <= j < |results| && results[j].Versioned() ==> results[j].time <= results[i].time
    requires forall j :: 0 <= j < i && results[j].Versioned() ==> results[j].time < results[i].time
    ensures Merge(results) == results[i]
  {
    var w := Merge(results);
    assert w.Versioned();
    var k :| 0 <= k < |results| && results[k] == w &&
      forall j :: 0 <= j < k && results[j].Versioned() ==> results[j].time < w.time;
    assert k == i;
  }

  /** The coordinator lists its own result first, so on a timestamp tie
      with the peers the local result wins. */
  lemma LocalWinsTies(local: Data, remote: seq<Data>)
    requires local.Versioned()
    requires forall j :: 0 <= j < |remote| && remote[j].Versioned() ==> remote[j].time <= local.time
    ensures Merge([local] + remote) == local
  {
    var results := [local] + remote;
    forall j | 0 <= j < |results| && results[j].Versioned()
      ensures results[j].time <= local.time
    {
      if j > 0 {
        assert results[j] == remote[j - 1];
      }
    }
    MergePicksEarliestNewest(results, 0);
  }

  /** Results without a timestamp (`Absent`, `Error`) never influence the
      merge beyond turning an empty outcome into `Absent`. */
  lemma {:induction false} MergeIgnoresUnversioned(results: seq<Data>)
    ensures Merge(results) == Merge(Versions(results))
  {
    if |results| > 0 {
      var prefix := results[..|results| - 1];
      var last := results[|results| - 1];
      MergeIgnoresUnversioned(prefix);
      if last.Versioned() {
        var v := Versions(prefix) + [last];
        assert v[..|v| - 1] == Versions(prefix);
      }
    }
  }

  /** A tombstone newer than every live value keeps the key deleted: the
      merge never resurrects an older value. */
  lemma TombstoneShadowsOlderValues(results: seq<Data>, i: nat)
    requires i < |results| && results[i].Deleted?
    requires forall j :: 0 <= j < |results| && results[j].Exists? ==> results[j].time < results[i].time
    ensures Merge(results).Deleted?
  {
    var w := Merge(results);
    assert w.Versioned();
    assert results[i].time <= w.time;
  }

  /** Live values at 5 and 9 and a tombstone at 7: the value written at 9
      wins. */
  lemma LastWriteWinsExample(a: seq<byte>, b: seq<byte>)
    ensures Merge([Exists(5, a), Exists(9, b), Deleted(7)]) == Exists(9, b)
  {
    MergePicksEarliestNewest([Exists(5, a), Exists(9, b), Deleted(7)], 1);
  }
}

=== FILE: replicas.dfy ===
/** Quorum parameters: how many acknowledgements (`ask`) an operation needs
    out of how many replicas (`from`) it is sent to, with the two ways a
    node obtains them: from a request's `replicas=ask/from` parameter and
    as the default majority of the cluster. */
module Replicas {
  import opened Wrappers
  import opened Text

  /** Why the `ReplicasParam` constructor rejects a pair; its checks run in
      this order and the first failing one is reported. */
  datatype QuorumError = AskNotPositive | FromNotPositive | AskExceedsFrom

  /** Why a `replicas` request parameter is rejected. `byRequestParam` wraps every
      one of these into the same `IllegalArgumentException`; they are kept
      apart here only so that lemmas can say which check fired. */
  datatype ParamError =
    | MalformedNumber                // some `/`-field is not an Int
    | TooFewFields                   // fewer than two fields
    | OutOfBounds(cause: QuorumError) // the constructor refused the pair

  /** `ask` acknowledgements required out of `from` replicas. */
  datatype ReplicasParam = ReplicasParam(ask: int, from: int) {
    /** The constructor's invariant. */
    predicate Valid() {
      1 <= ask <= from
    }
  }

  /** The `ReplicasParam` constructor with its `init` checks. */
  function Make(ask: int, from: int): (r: Result<ReplicasParam, QuorumError>)
    ensures r.Success? <==> 1 <= ask <= from
    ensures r.Success? ==> r.value == ReplicasParam(ask, from) && r.value.Valid()
    ensures r == Failure(AskNotPositive) <==> ask <= 0
    ensures r == Failure(FromNotPositive) <==> 0 < ask && from <= 0
    ensures r == Failure(AskExceedsFrom) <==> 0 < from < ask
  {
    if ask <= 0 then Failure(AskNotPositive)
    else if from <= 0 then Failure(FromNotPositive)
    else if ask > from then Failure(AskExceedsFrom)
    else Success(ReplicasParam(ask, from))
  }

  /** `fields.map { it.toInt() }`: every field converted, or a failure as
      soon as one of them is not an Int. */
  function ParseFields(fields: seq<string>): (r: Option<seq<int>>)
    ensures r.Some? <==> forall i :: 0 <= i < |fields| ==> ParseInt(fields[i]).Some?
    ensures r.Some? ==> |r.value| == |fields|
    ensures r.Some? ==> forall i :: 0 <= i < |fields| ==> ParseInt(fields[i]) == Some(r.value[i])
  {
    if |fields| == 0 then Some([])
    else
      match (ParseInt(fields[0]), ParseFields(fields[1..]))
      case (Some(n), Some(rest)) => Some([n] + rest)
      case _ => None
  }

  /** `ReplicasParam.byRequestParam`: splits at every `/` (empty fields
      kept), converts every field to an Int, destructures the first two and
      hands them to the constructor. */
  function ByRequestParam(replicas: string): (r: Result<ReplicasParam, ParamError>)
    ensures var fields := SplitAll(replicas, '/');
      r.Success? <==>
        && (forall i :: 0 <= i < |fields| ==> ParseInt(fields[i]).Some?)
        && |fields| >= 2
        && 1 <= ParseInt(fields[0]).value <= ParseInt(fields[1]).value
    ensures var fields := SplitAll(replicas, '/');
      r.Success? ==>
        && r.value.Valid()
        && ParseInt(fields[0]) == Some(r.value.ask)
        && ParseInt(fields[1]) == Some(r.value.from)
    ensures r == Failure(MalformedNumber) <==>
      exists i :: 0 <= i < |SplitAll(replicas, '/')| && ParseInt(SplitAll(replicas, '/')[i]).None?
  {
    match ParseFields(SplitAll(replicas, '/'))
    case None => Failure(MalformedNumber)
    case Some(numbers) =>
      if |numbers| < 2 then Failure(TooFewFields)
      else
        match Make(numbers[0], numbers[1])
        case Success(q) => Success(q)
        case Failure(e) => Failure(OutOfBounds(e))
  }

  /** The textual form `ask/from` a client writes. */
  function Format(q: ReplicasParam): string {
    IntToString(q.ask) + "/" + IntToString(q.from)
  }

  /** The decimal renderings of `numbers`, one per field. */
  function Render(numbers: seq<int>): (fields: seq<string>)
    ensures |fields| == |numbers|
    ensures forall i :: 0 <= i < |numbers| ==> fields[i] == IntToString(numbers[i])
  {
    seq(|numbers|, i requires 0 <= i < |numbers| => IntToString(numbers[i]))
  }

  lemma NoSlashInIntToString(n: int)
    ensures '/' !in IntToString(n)
  {
  }

  /** Every rendered Int32 is `/`-free and parses back to its number. */
  lemma RenderParsesBack(numbers: seq<int>)
    requires forall i :: 0 <= i < |numbers| ==> IsInt32(numbers[i])
    ensures forall i :: 0 <= i < |numbers| ==>
      '/' !in Render(numbers)[i] && ParseInt(Render(numbers)[i]) == Some(numbers[i])
  {
    forall i | 0 <= i < |numbers|
      ensures '/' !in Render(numbers)[i] && ParseInt(Render(numbers)[i]) == Some(numbers[i])
    {
      NoSlashInIntToString(numbers[i]);
      ParseIntToString(numbers[i]);
    }
  }

  /** Converting the renderings of Int32 numbers gives the numbers back. */
  lemma ParseFieldsRendered(numbers: seq<int>)
    requires forall i :: 0 <= i < |numbers| ==> IsInt32(numbers[i])
    ensures ParseFields(Render(numbers)) == Some(numbers)
  {
    RenderParsesBack(numbers);
    var r := ParseFields(Render(numbers));
    assert r.Some?;
    assert r.value == numbers;
  }

  /** `byRequestParam` reads back exactly the pair a valid `ask/from` was
      written from, whatever integer fields follow the first two. */
  lemma ExtraIntegerFieldsIgnored(q: ReplicasParam, extra: seq<int>)
    requires q.Valid() && IsInt32(q.ask) && IsInt32(q.from)
    requires forall i :: 0 <= i < |extra| ==> IsInt32(extra[i])
    ensures ByRequestParam(Join(Render([q.ask, q.from] + extra), '/')) == Success(q)
  {
    var numbers := [q.ask, q.from] + extra;
    var fields := Render(numbers);
    assert forall i :: 0 <= i < |numbers| ==> IsInt32(numbers[i]);
    RenderParsesBack(numbers);
    SplitAllJoin(fields, '/');
    ParseFieldsRendered(numbers);
    assert numbers[0] == q.ask && numbers[1] == q.from;
  }

  lemma RenderPair(a: int, b: int)
    ensures Join(Render([a, b]), '/') == IntToString(a) + "/" + IntToString(b)
  {
    var fields := Render([a, b]);
    assert fields[1..] == [IntToString(b)];
  }

  /** Formatting a valid pair as `ask/from` and parsing it gives the pair. */
  lemma FormatParseRoundTrip(q: ReplicasParam)
    requires q.Valid() && IsInt32(q.ask) && IsInt32(q.from)
    ensures ByRequestParam(Format(q)) == Success(q)
  {
    ExtraIntegerFieldsIgnored(q, []);
    assert [q.ask, q.from] + [] == [q.ask, q.from];
    RenderPair(q.ask, q.from);
  }

  /** Kotlin's `Int` division, which truncates toward zero. */
  function DivTrunc(a: int, b: int): (r: int)
    requires b > 0
    ensures a >= 0 ==> r == a / b
    ensures a < 0 ==> r == -((-a) / b)
  {
    if a >= 0 then a / b else -((-a) / b)
  }

  /** `ReplicasParam.byNodeCount`: the default majority quorum of a cluster
      of `count` nodes. */
  function ByNodeCount(count: int): (r: Result<ReplicasParam, QuorumError>)
    requires IsInt32(count)
    ensures r.Success? <==> count >= 1
    ensures r.Success? ==> r.value.Valid() && r.value.from == count
    ensures r.Success? ==> r.value.ask == count / 2 + 1
    ensures r.Success? ==> 2 * r.value.ask > r.value.from
    ensures count == 0 ==> r == Failure(FromNotPositive)
  {
    Make(DivTrunc(count, 2) + 1, count)
  }

  /** With the default quorum, any two sets of acknowledging nodes (a
      read's and a write's, say) share a node: majorities intersect. */
  lemma DefaultQuorumsIntersect<T>(nodes: set<T>, readers: set<T>, writers: set<T>)
    requires IsInt32(|nodes|) && |nodes| >= 1
    requires readers <= nodes && writers <= nodes
    requires |readers| >= ByNodeCount(|nodes|).value.ask
    requires |writers| >= ByNodeCount(|nodes|).value.ask
    ensures readers * writers != {}
  {
    var both := readers + writers;
    SubsetCardinality(both, nodes);
    assert |both| + |readers * writers| == |readers| + |writers|;
  }

  lemma SubsetCardinality<T>(small: set<T>, big: set<T>)
    requires small <= big
    ensures |small| <= |big|
  {
    assert big == small + (big - small);
  }

  /** A single field is too few: `"3"` is rejected. */
  lemma SingleFieldRejected()
    ensures ByRequestParam("3") == Failure(TooFewFields)
  {
    assert SplitAll("3", '/') == ["3"];
    assert ParseInt("3") == Some(3);
  }

  /** Non-numeric fields are rejected: `"x/y"`. */
  lemma NonNumericRejected()
    ensures ByRequestParam("x/y") == Failure(MalformedNumber)
  {
    assert Join(["x", "y"], '/') == "x/y";
    SplitAllJoin(["x", "y"], '/');
    assert ParseInt("x").None?;
  }

  /** A non-positive `ask` is rejected: `"0/3"`. */
  lemma ZeroAskRejected()
    ensures ByRequestParam("0/3") == Failure(OutOfBounds(AskNotPositive))
  {
    ExampleFields(0, 3);
  }

  /** `ask` above `from` is rejected: `"4/3"`. */
  lemma AskAboveFromRejected()
    ensures ByRequestParam("4/3") == Failure(OutOfBounds(AskExceedsFrom))
  {
    ExampleFields(4, 3);
  }

  /** A trailing `/` leaves an empty last field, which is not an Int. */
  lemma TrailingSlashRejected()
    ensures ByRequestParam("2/3/") == Failure(MalformedNumber)
  {
    assert Join(["2", "3", ""], '/') == "2/3/";
    SplitAllJoin(["2", "3", ""], '/');
  }

  /** A third integer field is read and then ignored: `"1/2/3"`. */
  lemma ThirdFieldIgnored()
    ensures ByRequestParam("1/2/3") == Success(ReplicasParam(1, 2))
  {
    assert [1, 2] + [3] == [1, 2, 3];
    var fields := Render([1, 2, 3]);
    assert fields == ["1", "2", "3"] by {
      assert IntToString(1) == "1" && IntToString(2) == "2" && IntToString(3) == "3";
    }
    assert Join(fields, '/') == "1/2/3";
    ExtraIntegerFieldsIgnored(ReplicasParam(1, 2), [3]);
  }

  lemma ExampleFields(a: nat, b: nat)
    requires a < 10 && b < 10
    ensures SplitAll([DigitChar(a), '/', DigitChar(b)], '/') == [[DigitChar(a)], [DigitChar(b)]]
    ensures ParseInt([DigitChar(a)]) == Some(a) && ParseInt([DigitChar(b)]) == Some(b)
  {
    assert Join([[DigitChar(a)], [DigitChar(b)]], '/') == [DigitChar(a), '/', DigitChar(b)];
    SplitAllJoin([[DigitChar(a)], [DigitChar(b)]], '/');
    assert DigitsValue([DigitChar(a)]) == a;
    assert DigitsValue([DigitChar(b)]) == b;
  }
}

=== FILE: text.dfy ===
/** String helpers with the semantics of the JVM library calls the service
    relies on: splitting at a separator character (the Kotlin flavour that
    keeps every field and the Java flavour that drops trailing empty ones),
    decimal conversion of a 32-bit `Int`, `endsWith`, `isBlank`, the natural
    `String` order and ASCII upper-casing. */
module Text {
  import opened Wrappers

  const MinInt32: int := -0x8000_0000
  const MaxInt32: int := 0x7fff_ffff

  /** The range of a Kotlin `Int` / Java `int`. */
  predicate IsInt32(n: int) {
    MinInt32 <= n <= MaxInt32
  }

  // ---------------------------------------------------------------------
  // Splitting at a separator
  // ---------------------------------------------------------------------

  /** Position of the first `c` in `s`. */
  function IndexOf(s: string, c: char): (i: nat)
    requires c in s
    ensures i < |s| && s[i] == c
    ensures forall j :: 0 <= j < i ==> s[j] != c
  {
    if s[0] == c then 0
    else
      assert c in s[1..] by { assert s == [s[0]] + s[1..]; }
      1 + IndexOf(s[1..], c)
  }

  /** The text before the first `sep`, or all of `s` when it has none. */
  function Before(s: string, sep: char): (r: string)
    ensures sep !in r
    ensures r <= s
    ensures sep !in s ==> r == s
  {
    if sep in s then s[..IndexOf(s, sep)] else s
  }

  /** The text after the first `sep`, or "" when `s` has none. */
  function After(s: string, sep: char): (r: string)
    ensures sep in s ==> s == Before(s, sep) + [sep] + r
    ensures sep !in s ==> r == []
    ensures |r| < |s| || sep !in s
  {
    if sep in s then s[IndexOf(s, sep) + 1..] else []
  }

  /** Every field between separators, empty ones included; what Kotlin's
      `CharSequence.split(Char)` returns. There is always at least one. */
  function SplitAll(s: string, sep: char): (fields: seq<string>)
    ensures |fields| >= 1
    ensures fields[0] == Before(s, sep)
    ensures forall i :: 0 <= i < |fields| ==> sep !in fields[i]
    decreases |s|
  {
    if sep !in s then [s]
    else [Before(s, sep)] + SplitAll(After(s, sep), sep)
  }

  /** The fields glued back together with `sep` between neighbours. */
  function Join(fields: seq<string>, sep: char): string
    requires |fields| >= 1
  {
    if |fields| == 1 then fields[0]
    else fields[0] + [sep] + Join(fields[1..], sep)
  }

  /** Joining the fields of a split gives back the original text. */
  lemma {:induction false} JoinSplitAll(s: string, sep: char)
    ensures Join(SplitAll(s, sep), sep) == s
    decreases |s|
  {
    if sep in s {
      var rest := After(s, sep);
      JoinSplitAll(rest, sep);
      assert SplitAll(s, sep)[1..] == SplitAll(rest, sep);
    }
  }

  /** Splitting a join of separator-free fields gives back the fields. */
  lemma {:induction false} SplitAllJoin(fields: seq<string>, sep: char)
    requires |fields| >= 1
    requires forall i :: 0 <= i < |fields| ==> sep !in fields[i]
    ensures SplitAll(Join(fields, sep), sep) == fields
    decreases |fields|
  {
    if |fields| > 1 {
      var tail := fields[1..];
      SplitAllJoin(tail, sep);
      SplitAllCons(fields[0], Join(tail, sep), sep);
      assert fields == [fields[0]] + tail;
    }
  }

  /** A separator-free first field followed by `sep` splits off first. */
  lemma SplitAllCons(head: string, rest: string, sep: char)
    requires sep !in head
    ensures SplitAll(head + [sep] + rest, sep) == [head] + SplitAll(rest, sep)
  {
    SplitAtFirst(head, rest, sep);
  }

  /** The first separator of `head + [sep] + rest` is the one after a
      separator-free `head`. */
  lemma SplitAtFirst(head: string, rest: string, sep: char)
    requires sep !in head
    ensures sep in head + [sep] + rest
    ensures Before(head + [sep] + rest, sep) == head
    ensures After(head + [sep] + rest, sep) == rest
  {
    var s := head + [sep] + rest;
    assert s[|head|] == sep;
    assert forall j :: 0 <= j < |head| ==> s[j] == head[j];
    assert IndexOf(s, sep) == |head|;
  }

  /** Drops the empty fields at the end, as Java's `String.split(regex)` and
      `Pattern.splitAsStream` do. */
  function DropTrailingEmpty(fields: seq<string>): (r: seq<string>)
    ensures r <= fields
    ensures |r| == 0 || r[|r| - 1] != []
    ensures forall i :: |r| <= i < |fields| ==> fields[i] == []
  {
    if |fields| > 0 && fields[|fields| - 1] == [] then
      DropTrailingEmpty(fields[..|fields| - 1])
    else fields
  }

  /** Java's `String.split(sep)` for a one-character, non-special
      separator: the input itself when it is empty, otherwise every field
      with the trailing empty ones dropped. */
  function JavaSplit(s: string, sep: char): (r: seq<string>)
    ensures s != [] ==> r <= SplitAll(s, sep)
    ensures s == [] ==> r == [[]]
    ensures s != [] ==> forall i :: |r| <= i < |SplitAll(s, sep)| ==> SplitAll(s, sep)[i] == []
    ensures s != [] && |r| > 0 ==> r[|r| - 1] != []
  {
    if s == [] then [[]]
    else
      var fields := SplitAll(s, sep);
      DropTrailingEmpty(fields)
  }

  /** Java 8's `Pattern.splitAsStream` for a one-character separator: the
      fields of `String.split`, except that an empty input yields no field
      at all. Either way the result is the longest prefix of all the fields
      that ends in a non-empty one. */
  function StreamSplit(s: string, sep: char): (r: seq<string>)
    ensures r <= SplitAll(s, sep)
    ensures |r| == 0 || r[|r| - 1] != []
    ensures forall i :: |r| <= i < |SplitAll(s, sep)| ==> SplitAll(s, sep)[i] == []
  {
    if s == [] then [] else JavaSplit(s, sep)
  }

  // ---------------------------------------------------------------------
  // Decimal conversion of `Int`
  // ---------------------------------------------------------------------

  predicate IsDigit(c: char) {
    '0' <= c <= '9'
  }

  function DigitChar(d: nat): (c: char)
    requires d < 10
    ensures IsDigit(c)
  {
    (48 + d) as char
  }

  function DigitValue(c: char): (d: nat)
    requires IsDigit(c)
    ensures d < 10
  {
    (c as int) - 48
  }

  predicate AllDigits(s: string) {
    forall i :: 0 <= i < |s| ==> IsDigit(s[i])
  }

  /** The shortest decimal rendering of `n`. */
  function NatToString(n: nat): (s: string)
    ensures |s| >= 1 && AllDigits(s)
  {
    if n < 10 then [DigitChar(n)]
    else NatToString(n / 10) + [DigitChar(n % 10)]
  }

  /** `Integer.toString` (what a Kotlin string template prints for an Int). */
  function IntToString(n: int): (s: string)
    ensures |s| >= 1
    ensures forall i :: 0 <= i < |s| ==> IsDigit(s[i]) || (i == 0 && s[i] == '-')
  {
    if n < 0 then "-" + NatToString(-n) else NatToString(n)
  }

  /** The number a non-empty run of decimal digits denotes (leading zeros
      allowed). */
  function DigitsValue(s: string): nat
    requires AllDigits(s)
  {
    if |s| == 0 then 0
    else DigitsValue(s[..|s| - 1]) * 10 + DigitValue(s[|s| - 1])
  }

  /** `Integer.parseInt` (Kotlin's `String.toInt`): an optional `+` or `-`,
      then one or more decimal digits, whose value must fit in an `Int`. */
  function ParseInt(s: string): (r: Option<int>)
    ensures r.Some? ==> IsInt32(r.value)
    ensures r.Some? ==> |s| >= 1 && !(|s| == 1 && (s[0] == '-' || s[0] == '+'))
    ensures r.Some? ==> forall i :: 0 <= i < |s| ==> IsDigit(s[i]) || (i == 0 && (s[i] == '-' || s[i] == '+'))
  {
    if |s| == 0 then None
    else
      var negative := s[0] == '-';
      var digits := if s[0] == '-' || s[0] == '+' then s[1..] else s;
      if |digits| == 0 || !AllDigits(digits) then None
      else
        var magnitude: int := DigitsValue(digits);
        var v := if negative then -magnitude else magnitude;
        if IsInt32(v) then Some(v) else None
  }

  lemma {:induction false} DigitsValueOfNatToString(n: nat)
    ensures DigitsValue(NatToString(n)) == n
  {
    if n >= 10 {
      var s := NatToString(n);
      assert s[..|s| - 1] == NatToString(n / 10);
      DigitsValueOfNatToString(n / 10);
    }
  }

  /** Printing an Int and parsing it back gives the same Int. */
  lemma ParseIntToString(n: int)
    requires IsInt32(n)
    ensures ParseInt(IntToString(n)) == Some(n)
  {
    var s := IntToString(n);
    if n < 0 {
      var digits := NatToString(-n);
      assert s[0] == '-' && s[1..] == digits;
      DigitsValueOfNatToString(-n);
    } else {
      assert IsDigit(s[0]);
      DigitsValueOfNatToString(n);
    }
  }

  // ---------------------------------------------------------------------
  // Predicates and orderings on strings
  // ---------------------------------------------------------------------

  /** `String.endsWith`. */
  predicate EndsWith(s: string, suffix: string) {
    |suffix| <= |s| && s[|s| - |suffix|..] == suffix
  }

  /** Kotlin's `Char.isWhitespace`: Java's `Character.isWhitespace` or
      `Character.isSpaceChar` (the space, line and paragraph separators of
      Unicode 6.2, the version Java 8 follows; U+180E is a space separator
      there). */
  predicate IsWhitespace(c: char) {
    || c == '\t' || c == '\n' || c == '\U{000B}' || c == '\U{000C}' || c == '\r'
    || ('\U{001C}' <= c <= '\U{001F}')
    || c == ' ' || c == '\U{00A0}' || c == '\U{1680}' || c == '\U{180E}'
    || ('\U{2000}' <= c <= '\U{200A}')
    || c == '\U{2028}' || c == '\U{2029}' || c == '\U{202F}' || c == '\U{205F}' || c == '\U{3000}'
  }

  /** Kotlin's `CharSequence.isBlank`, a scan that stops at the first
      character that is not whitespace: true exactly for the empty string
      and strings of whitespace only. */
  function IsBlank(s: string): (b: bool)
    ensures b <==> forall i :: 0 <= i < |s| ==> IsWhitespace(s[i])
  {
    if |s| == 0 then true
    else IsWhitespace(s[0]) && IsBlank(s[1..])
  }

  /** The natural `String` order: lexicographic by character, a proper prefix
      before its extensions. */
  predicate StrLeq(a: string, b: string) {
    |a| == 0 || (|b| > 0 && (a[0] < b[0] || (a[0] == b[0] && StrLeq(a[1..], b[1..]))))
  }

  lemma StrLeqReflexive(a: string)
    ensures StrLeq(a, a)
  {
  }

  lemma StrLeqTotal(a: string, b: string)
    ensures StrLeq(a, b) || StrLeq(b, a)
  {
  }

  lemma StrLeqAntisymmetric(a: string, b: string)
    requires StrLeq(a, b) && StrLeq(b, a)
    ensures a == b
  {
    if |a| > 0 && |b| > 0 {
      StrLeqAntisymmetric(a[1..], b[1..]);
      assert a == [a[0]] + a[1..];
      assert b == [b[0]] + b[1..];
    }
  }

  lemma StrLeqTransitive(a: string, b: string, c: string)
    requires StrLeq(a, b) && StrLeq(b, c)
    ensures StrLeq(a, c)
  {
    if |a| > 0 && |b| > 0 && |c| > 0 {
      if a[0] == b[0] && b[0] == c[0] {
        StrLeqTransitive(a[1..], b[1..], c[1..]);
      }
    }
  }

  function ToUpperAsciiChar(c: char): char {
    if 'a' <= c <= 'z' then (c as int - 32) as char else c
  }

  /** Upper-cases the ASCII letters and leaves every other character alone. */
  function ToUpperAscii(s: string): (r: string)
    ensures |r| == |s|
    ensures forall i :: 0 <= i < |s| ==> r[i] == ToUpperAsciiChar(s[i])
  {
    if |s| == 0 then [] else [ToUpperAsciiChar(s[0])] + ToUpperAscii(s[1..])
  }
}

=== FILE: topology.dfy ===
/** The static cluster layout a node builds once at start-up: the sorted
    list of peer addresses (every configured address except its own) and
    the fixed prefix of that list an external request fans out to. */
module Topology {
  import opened Text
  import opened Replicas

  predicate Sorted(s: seq<string>) {
    forall i, j :: 0 <= i < j < |s| ==> StrLeq(s[i], s[j])
  }

  /** A sorted list stays sorted under a head no greater than any of its
      elements. */
  lemma SortedCons(h: string, t: seq<string>)
    requires Sorted(t)
    requires forall j :: 0 <= j < |t| ==> StrLeq(h, t[j])
    ensures Sorted([h] + t)
  {
    var r := [h] + t;
    forall i, j | 0 <= i < j < |r| ensures StrLeq(r[i], r[j]) {
      assert r[j] == t[j - 1];
      if i > 0 { assert r[i] == t[i - 1]; }
    }
  }

  /** Below the head of a sorted list is below all of it. */
  lemma BelowHead(x: string, s: seq<string>)
    requires Sorted(s) && |s| > 0 && StrLeq(x, s[0])
    ensures forall j :: 0 <= j < |s| ==> StrLeq(x, s[j])
  {
    forall j | 0 <= j < |s| ensures StrLeq(x, s[j]) {
      if j > 0 { StrLeqTransitive(x, s[0], s[j]); }
    }
  }

  /** The head of a sorted list is below `x` inserted past it and below
      the rest. */
  lemma HeadBelowInserted(x: string, s: seq<string>, rest: seq<string>)
    requires Sorted(s) && |s| > 0 && !StrLeq(x, s[0])
    requires multiset(rest) == multiset(s[1..]) + multiset{x}
    ensures forall j :: 0 <= j < |rest| ==> StrLeq(s[0], rest[j])
  {
    StrLeqTotal(x, s[0]);
    forall j | 0 <= j < |rest| ensures StrLeq(s[0], rest[j]) {
      assert rest[j] in multiset(rest);
      if rest[j] != x {
        assert rest[j] in multiset(s[1..]);
        var k :| 0 <= k < |s[1..]| && s[1..][k] == rest[j];
        assert s[k + 1] == rest[j];
      }
    }
  }

  /** Places `x` into a sorted list. */
  function Insert(x: string, s: seq<string>): (r: seq<string>)
    requires Sorted(s)
    ensures Sorted(r)
    ensures multiset(r) == multiset(s) + multiset{x}
  {
    if |s| == 0 then [x]
    else if StrLeq(x, s[0]) then
      BelowHead(x, s);
      SortedCons(x, s);
      [x] + s
    else
      var rest := Insert(x, s[1..]);
      HeadBelowInserted(x, s, rest);
      SortedCons(s[0], rest);
      assert s == [s[0]] + s[1..];
      [s[0]] + rest
  }

  /** `MutableList.sort()` on strings: the same addresses in ascending
      natural order. */
  function Sort(s: seq<string>): (r: seq<string>)
    ensures Sorted(r)
    ensures multiset(r) == multiset(s)
  {
    if |s| == 0 then []
    else
      MultisetOfInit(s);
      Insert(s[|s| - 1], Sort(s[..|s| - 1]))
  }

  /** The head of a sorted list is below every element it holds. */
  lemma HeadIsLeast(a: seq<string>, x: string)
    requires Sorted(a) && x in a
    ensures StrLeq(a[0], x)
  {
    var i :| 0 <= i < |a| && a[i] == x;
    if i == 0 { StrLeqReflexive(x); }
  }

  lemma MultisetOfInit(a: seq<string>)
    requires |a| > 0
    ensures multiset(a) == multiset(a[..|a| - 1]) + multiset{a[|a| - 1]}
  {
    assert a == a[..|a| - 1] + [a[|a| - 1]];
  }

  lemma MultisetOfTail(a: seq<string>)
    requires |a| > 0
    ensures multiset(a[1..]) == multiset(a) - multiset{a[0]}
  {
    assert a == [a[0]] + a[1..];
  }

  lemma SameHeadSameTail(a: seq<string>, b: seq<string>)
    requires |a| > 0 && |b| > 0 && a[0] == b[0] && a[1..] == b[1..]
    ensures a == b
  {
    assert a == [a[0]] + a[1..] && b == [b[0]] + b[1..];
  }

  /** Two sorted lists holding the same addresses are the same list. */
  lemma {:induction false} SortedUnique(a: seq<string>, b: seq<string>)
    requires Sorted(a) && Sorted(b)
    requires multiset(a) == multiset(b)
    ensures a == b
    decreases |a|
  {
    if |a| > 0 {
      assert a[0] in multiset(b) && b[0] in multiset(a);
      HeadIsLeast(b, a[0]);
      HeadIsLeast(a, b[0]);
      StrLeqAntisymmetric(a[0], b[0]);
      MultisetOfTail(a);
      MultisetOfTail(b);
      SortedUnique(a[1..], b[1..]);
      SameHeadSameTail(a, b);
    } else {
      assert |multiset(b)| == 0;
    }
  }

  /** `address.endsWith(":$port")`: the addresses a node takes for its own. */
  predicate IsSelf(address: string, port: int) {
    EndsWith(address, ":" + IntToString(port))
  }

  /** The configured addresses a node does not take for its own, in
      enumeration order. */
  function Others(topology: seq<string>, port: int): (r: seq<string>)
    ensures forall a :: multiset(r)[a] == if IsSelf(a, port) then 0 else multiset(topology)[a]
  {
    if |topology| == 0 then []
    else
      var rest := Others(topology[..|topology| - 1], port);
      var last := topology[|topology| - 1];
      MultisetOfInit(topology);
      if IsSelf(last, port) then rest else rest + [last]
  }

  /** The node's peer list (`addresses` after `init`): every configured
      address that does not end in `":port"`, sorted. `topology` is one
      enumeration of the configured address set. */
  function Peers(topology: seq<string>, port: int): (peers: seq<string>)
    ensures Sorted(peers)
    ensures forall a :: a in peers <==> a in topology && !IsSelf(a, port)
    ensures forall a :: multiset(peers)[a] == if IsSelf(a, port) then 0 else multiset(topology)[a]
  {
    var r := Sort(Others(topology, port));
    assert forall a :: a in r <==> multiset(r)[a] > 0;
    assert forall a :: a in topology <==> multiset(topology)[a] > 0;
    r
  }

  /** The peer list does not depend on the order in which the configured
      address set happens to be enumerated. */
  lemma PeersIgnoreEnumerationOrder(t1: seq<string>, t2: seq<string>, port: int)
    requires multiset(t1) == multiset(t2)
    ensures Peers(t1, port) == Peers(t2, port)
  {
    var p1, p2 := Peers(t1, port), Peers(t2, port);
    assert forall a :: multiset(p1)[a] == multiset(p2)[a];
    assert multiset(p1) == multiset(p2);
    SortedUnique(p1, p2);
  }

  /** Every address ending in `":port"` is dropped, including one of another
      host that listens on the same port number. */
  lemma SamePortElsewhereIsNotAPeer(port: int)
    ensures var other := "otherhost:" + IntToString(port);
      other !in Peers([other], port)
  {
    var other := "otherhost:" + IntToString(port);
    var suffix := ":" + IntToString(port);
    assert other[|other| - |suffix|..] == suffix;
  }

  function Min(a: int, b: int): int {
    if a <= b then a else b
  }

  /** The peers an external request fans out to: the first `from - 1`
      entries of the peer list (`addresses.take(from - 1)`), and none when
      `from` is 1. The choice does not depend on the key. */
  function FanOutTargets(peers: seq<string>, q: ReplicasParam): (targets: seq<string>)
    requires q.Valid()
    ensures |targets| == Min(q.from - 1, |peers|)
    ensures targets <= peers
    ensures q.from == 1 ==> targets == []
  {
    if q.from > 1 then peers[..Min(q.from - 1, |peers|)] else []
  }

  /** A prefix of a sorted list is sorted and holds only its elements. */
  lemma PrefixKeepsOrder(s: seq<string>, p: seq<string>)
    requires Sorted(s) && p <= s
    ensures Sorted(p)
    ensures forall a :: a in p ==> a in s
  {
    forall a | a in p ensures a in s {
      var i :| 0 <= i < |p| && p[i] == a;
      assert s[i] == a;
    }
  }

  /** Fan-out targets are peers (never the node itself) and come in the
      peer list's sorted order. */
  lemma FanOutTargetsArePeers(topology: seq<string>, port: int, q: ReplicasParam)
    requires q.Valid()
    ensures var targets := FanOutTargets(Peers(topology, port), q);
      Sorted(targets) && forall a :: a in targets ==> a in topology && !IsSelf(a, port)
  {
    var peers := Peers(topology, port);
    var targets := FanOutTargets(peers, q);
    PrefixKeepsOrder(peers, targets);
  }
}

=== FILE: wrappers.dfy ===
/** Failure-carrying datatypes used throughout the model in place of the
    Kotlin and Java services' nullable values and exceptions. */
module Wrappers {

  /** A value that may be missing (a Kotlin/Java `null`). */
  datatype Option<+T> = None | Some(value: T)

  /** Either a value or the reason it could not be produced (an exception
      the service code throws and a caller catches). */
  datatype Result<+T, +E> = Success(value: T) | Failure(error: E)

  /** The outcome of a call into code outside the model (the local storage
      engine): it either returned a value or threw. */
  datatype Attempt<+T> = Done(value: T) | Threw
}
